=== FILE: README.md ===
# The ploop graph driver's layer bookkeeping, in Dafny

This project models the core of Docker's `ploop` graph driver
(`daemon/graphdriver/ploop/ploop.go` and `utils.go`). The driver keeps each
image layer as a ploop virtual disk. The metadata directory `<home>/<id>`
holds the disk descriptor `DiskDescriptor.xml`, the image files `root.hdd*`,
a debugging link `parent`, and, once children were cloned from the layer,
the snapshot marker `uuid-for-children`. The layer is mounted at
`<home>/mnt/<id>`.

The driver is modelled as a sequential state machine of pure functions:

- **File system** (`Files`). A map from paths (sequences of names) to
  directories, files and symbolic links. A set of faulty paths stands for
  every I/O error the operating system may return. Every operation the
  driver uses (`Mkdir`, `MkdirAll`, `RemoveAll`, `Remove`, `Stat`,
  `OpenFile` with `O_EXCL`, `Create`, `ReadFile`, `Link`, `Symlink`,
  `ReadDir`) is a total function with a `Result`. As in Go,
  `MkdirAll` looks a path up again when `Mkdir` fails, and `ReadDir` looks
  up every entry it lists, so a faulty entry fails the listing.
- **Native ploop library** (`Native`). An oracle of total functions from
  arguments to outcomes. Each driver operation also returns the trace of
  native calls it made, so "no native call" and "the snapshot is taken
  once" are statements about that trace.
- **Option parsing** (`Options`). `Init`'s loop over `key=value` options:
  lower-cased keys, `ploop.size`, `ploop.mode`, `ploop.clog` with the range
  [6, 16] checked on an 8-bit decimal parse, and any other key rejected.
- **Key/value helpers and file copy** (`Utils`). `writeVal`, `readVal`,
  `removeVal` and `copyFile`.
- **The driver** (`Ploop`, `Layers`, `Mounts`). `Init`, `Exists` and
  `Remove`; `create`, `markParent`, `clone` and `Create`; and the `Get`/`Put`
  mount reference counter.
- **Scenarios**. Properties that span several operations:
  - children cloned from one parent share one snapshot of it;
  - a parent with children is mounted read-only;
  - a created layer exists until it is removed.

The paths `d.dir(id)`, `d.mnt(id)`, `d.dd(id)` and `d.img(id)` come from
helpers that are not part of this model. The layout above is used for them:
`<home>/<id>`, `<home>/mnt/<id>`, `<home>/<id>/DiskDescriptor.xml` and
`<home>/<id>/root.hdd`. A layer id is joined to the home directory as one
path component. Properties that depend on the layout assume `Ploop.ValidId`:
the id is a plain name (not empty, not `.` or `..`, without `/`) and is not
`mnt`, which would make the layer directory coincide with the mount root.

What the code does, and the model with it:

- The driver has no master template image. `create` calls `ploop.Create`
  directly for every layer without a parent.
- `Cleanup` does nothing.
- `Remove` only deletes the layer directory and the mount point.
- Option keys carry the `ploop.` prefix, and the last option with a key wins.
- No option sets the debug level. It follows the daemon's log level.

## Model

| member | source | states |
|---|---|---|
| Strings.ParseInt8 | daemon/graphdriver/ploop/ploop.go:71 | `strconv.ParseInt(val, 10, 8)`. It succeeds iff the text is an optional sign followed by decimal digits whose value lies in [-128, 127], and a result is always in that range. |
| Strings.ParseInt8Decimal | daemon/graphdriver/ploop/ploop.go:71 | Every 8-bit value is parsed back from its decimal text, and negative values from the text with a minus sign. |
| Strings.SortedList | daemon/graphdriver/ploop/ploop.go:223 | The listing of `ioutil.ReadDir` holds exactly the names of the set, each once, in strictly increasing order. |
| Options.ApplyOption | daemon/graphdriver/ploop/ploop.go:56-77 | Keys are compared after lower-casing. An unknown key fails, naming the lower-cased key. `ploop.clog` succeeds iff its value parses as an 8-bit integer in [6, 16], stores that value, and otherwise fails with a message naming the value. `ploop.size` and `ploop.mode` take the external parser's value or error. |
| Options.ParseOptions | daemon/graphdriver/ploop/ploop.go:51-78 | The loop succeeds iff every option splits into a pair whose lower-cased key is known and whose value parses for that key, a cluster log in [6, 16]. On failure, the first option not accepted decides the error. |
| Options.LastSizeWins | daemon/graphdriver/ploop/ploop.go:58-63 | After a successful loop, the size is the value of the last `ploop.size` option, or the starting size when there is none. |
| Options.LastModeWins | daemon/graphdriver/ploop/ploop.go:64-69 | After a successful loop, the mode is the value of the last `ploop.mode` option, or the starting mode when there is none. |
| Options.LastClogWins | daemon/graphdriver/ploop/ploop.go:70-74 | After a successful loop, the cluster log is the value of the last `ploop.clog` option, or the starting one when there is none. |
| Options.UnknownKeyRejected | daemon/graphdriver/ploop/ploop.go:75-76 | One option with an unknown key anywhere in the list makes the whole loop fail. |
| Options.ClogAcceptedIff | daemon/graphdriver/ploop/ploop.go:51-78 | A `ploop.clog` option anywhere in the list is accepted iff its value parses as an integer in [6, 16]. A bad one fails the loop, with the "Bad value" error when every earlier option was accepted. After success the last such option's value is stored. |
| Options.NoOptionsGiveDefaults | daemon/graphdriver/ploop/ploop.go:46-49 | Without options the configuration is 8589934592 bytes, expanded mode and cluster log 9. |
| Options.ClogRangeAccepted | daemon/graphdriver/ploop/ploop.go:70-74 | Every value from 6 to 16, written in decimal with or without a plus sign, is accepted and stored. |
| Ploop.ToKiBRounding | daemon/graphdriver/ploop/ploop.go:83 | `uint64(s >> 10)` is the number of whole KiB in a non-negative byte count. A negative count wraps around modulo 2^64. |
| Ploop.Init | daemon/graphdriver/ploop/ploop.go:41-102 | A failed option loop yields no driver and no file-system change. A driver carries the home, the parsed mode and cluster log, the size in whole KiB and no mounts, and exists only if every option was accepted. With the options accepted, a failed `MkdirAll` of the home directory returns its error with no change, and otherwise there is a driver iff the `MkdirAll` of the mount root succeeds. After success the layer and mount roots are directories. |
| Ploop.InitBuilds | daemon/graphdriver/ploop/ploop.go:51-99 | With every option accepted, and every prefix of the mount root free of faults and either missing or a directory, `Init` returns a driver. |
| Ploop.InitDefaultDriver | daemon/graphdriver/ploop/ploop.go:46-99 | Without options, on a home directory whose two roots already exist and can be opened, `Init` returns the driver with 8388608 KiB, expanded mode, cluster log 9 and no mounts, and changes nothing. |
| Ploop.InitDefaults | daemon/graphdriver/ploop/ploop.go:46-85 | Without options the driver makes expanded images of 8388608 KiB with cluster log 9. |
| Ploop.InitClog | daemon/graphdriver/ploop/ploop.go:51-85 | A malformed or out-of-range `ploop.clog` option anywhere in the list yields no driver and no change. A driver has the cluster log of the last such option. |
| Ploop.InitRejectsBadOption | daemon/graphdriver/ploop/ploop.go:51-78 | Any option that is not accepted, wherever it stands, yields no driver and no file-system change. |
| Ploop.InitSizeAndMode | daemon/graphdriver/ploop/ploop.go:46-85 | A driver's size in KiB and its mode come from the last `ploop.size` and `ploop.mode` options. Without them they are 8388608 KiB and expanded. |
| Ploop.Exists | daemon/graphdriver/ploop/ploop.go:380-394 | A layer exists iff its descriptor can be stat'ed. |
| Ploop.Remove | daemon/graphdriver/ploop/ploop.go:288-301 | Succeeds iff neither directory, nor any existing path below either, is faulty. Success removes both directories, so the layer no longer exists. Nothing outside the two directories changes. |
| Utils.WriteVal | daemon/graphdriver/ploop/utils.go:56-71 | An existing key file makes the write fail (`O_EXCL`) and leaves everything unchanged. Success iff the key is absent, writable and inside a directory, and the new file holds the value. Only the key's path changes. |
| Utils.ReadVal | daemon/graphdriver/ploop/utils.go:73-84 | A missing key reads as `""` unless a regular file lies above it, which is an error (ENOTDIR). A present key reads as its file's contents. Every other read error is returned, and it is never "not found". |
| Utils.ReadValElsewhere | daemon/graphdriver/ploop/utils.go:73-84 | `readVal` depends only on the key's file and the directories above it. A change anywhere else leaves the value read unchanged. |
| Utils.RemoveVal | daemon/graphdriver/ploop/utils.go:86-88 | Success removes the key file and changes nothing else. A present, non-faulty key file is always removable. |
| Utils.CopyFile | daemon/graphdriver/ploop/utils.go:28-54 | Success iff the source is a readable file and the destination can be created and written. Success makes the destination's contents those of the source. A failed copy after both opens removes the destination, and a failed open changes nothing. Only the destination changes. |
| Utils.WriteThenRead | daemon/graphdriver/ploop/utils.go:56-84 | A value written with `writeVal` is read back by `readVal`. |
| Utils.WriteKeepsOtherKeys | daemon/graphdriver/ploop/utils.go:56-84 | Writing one key leaves the value of every other key as it was. |
| Utils.RemoveThenReadAndWrite | daemon/graphdriver/ploop/utils.go:73-88 | In a tree where every entry sits in a directory, after `removeVal` the key reads as `""`. A new `writeVal` of it succeeds. |
| Utils.RemoveKeepsOtherKeys | daemon/graphdriver/ploop/utils.go:87 | Removing one key leaves the value of every other key as it was. |
| Utils.CopyOntoItselfEmpties | daemon/graphdriver/ploop/utils.go:35-46 | Copying a file onto itself truncates it before reading, so it ends up empty. |
| Layers.CreateImage | daemon/graphdriver/ploop/ploop.go:154-164 | `create` makes one native call, with the driver's size, mode and cluster log, the image path and the no-lazy flag. Its outcome is the call's. On success the descriptor is a file. Nothing outside the layer directory changes. |
| Layers.MarkParent | daemon/graphdriver/ploop/ploop.go:167-176 | Success leaves the link `parent -> ../<parent>` in the layer directory. Failure changes nothing, and an existing entry is never replaced. |
| Layers.LinkImages | daemon/graphdriver/ploop/ploop.go:227-240 | Only names with the `root.hdd` prefix are linked, and no existing entry is replaced. When the loop completes, every listed image name in the child is the parent's file, with the same inode. |
| Layers.LinkImagesSucceedsIff | daemon/graphdriver/ploop/ploop.go:227-240 | Between two different directories and over names listed once, the loop succeeds iff every listed image name can be linked in the file system it started from. The source must be an openable entry other than a directory, and the target name free and openable in an existing directory. |
| Layers.HardlinkImages | daemon/graphdriver/ploop/ploop.go:222-240 | Only listable parents succeed. On success, every image file of the parent is hard-linked into the child. |
| Layers.HardlinkImagesSucceedsIff | daemon/graphdriver/ploop/ploop.go:222-240 | Into a different directory, the listing and loop succeed iff the parent directory and every entry in it can be opened and every image name in it can be linked. |
| Layers.LinkIntoChild | daemon/graphdriver/ploop/ploop.go:222-240 | The listing and hardlink loop run from the parent's directory into the child's. Only `root.hdd*` names inside the child are added, no existing entry is replaced, the child's descriptor is left alone, and success needs a listable parent directory. |
| Layers.CopyDescriptor | daemon/graphdriver/ploop/ploop.go:217-220 | On success the child's descriptor is a file with the contents of the parent's descriptor. Only that path changes. |
| Layers.PopulateChild | daemon/graphdriver/ploop/ploop.go:215-240 | The file-system part of `clone` changes nothing outside the child's directory and never replaces an entry other than the child's descriptor. A `markParent` failure is ignored. Success leaves a descriptor file. |
| Layers.PopulateChildSucceedsIff | daemon/graphdriver/ploop/ploop.go:215-240 | For a parent other than the child, populating succeeds iff the parent's descriptor can be copied onto the child's and the parent's image files can be listed and linked, all judged on the file system before the call. |
| Layers.ChildDescriptorCopied | daemon/graphdriver/ploop/ploop.go:217-220 | After the file-system part of `clone`, the child's descriptor holds the contents of the parent's. |
| Layers.ChildImagesLinked | daemon/graphdriver/ploop/ploop.go:222-240 | After the file-system part of `clone`, the child holds every `root.hdd*` entry of its parent, as the same entry. |
| Layers.ChildLinksParent | daemon/graphdriver/ploop/ploop.go:167-176 | After a successful clone, the child holds the link `parent -> ../<parent>` whenever the link could be made. |
| Layers.ChildGetsOnlyImages | daemon/graphdriver/ploop/ploop.go:230-233 | Apart from its descriptor and the parent link, a clone gives the child nothing but `root.hdd*` names. |
| Layers.CloneFromSnapshot | daemon/graphdriver/ploop/ploop.go:215-254 | With a known snapshot, the clone succeeds iff the child is populated, its descriptor opens natively, and the switch to the snapshot succeeds. The first failing step gives the error. A success makes exactly the calls open, switch and close on the child's descriptor, and never takes a snapshot. |
| Layers.SwitchToSnapshot | daemon/graphdriver/ploop/ploop.go:242-254 | After a successful populate, the child's descriptor is opened natively and switched to the snapshot. It succeeds iff both calls do, and the first failing one gives the error. The file system is the populated one. |
| Layers.RecordSnapshot | daemon/graphdriver/ploop/ploop.go:209-210 | Recording the snapshot never overwrites an existing marker. When the marker was absent and writable, it reads back as the snapshot. |
| Layers.CloneWithNewSnapshot | daemon/graphdriver/ploop/ploop.go:193-254 | The parent is opened, snapshotted once and closed before anything else, and no later call takes a snapshot. An open or snapshot failure changes nothing on disk. It succeeds iff the parent opens, the snapshot is taken, and the child is populated, opened and switched to the new snapshot. An existing marker is kept. |
| Layers.Clone | daemon/graphdriver/ploop/ploop.go:179-255 | A marker read error fails with no change and no call. A recorded snapshot is reused, and no snapshot is taken. The clone then succeeds iff the child is populated, opened and switched to that snapshot. An empty marker leads to a new snapshot. The marker, once present, is never changed. The driver's own file operations change nothing outside the child's directory and the parent's marker. |
| Layers.CloneAfterSnapshot | daemon/graphdriver/ploop/ploop.go:209-254 | Once a new snapshot is taken, it is recorded in an absent, writable marker, where it then reads back. The clone succeeds iff the child is populated on that file system, its descriptor opens, and the switch to the new snapshot succeeds. No call takes a snapshot, and a success makes exactly the calls open, switch and close. Nothing outside the child's directory and the marker changes, and no existing entry but the child's descriptor is replaced. |
| Layers.CloneCopiesParent | daemon/graphdriver/ploop/ploop.go:179-255 | With native calls writing no file (see "## Left out"), after a successful clone, the child's descriptor holds the contents of the parent's descriptor. Every `root.hdd*` entry of the parent is the same entry in the child, as they were before the clone. |
| Layers.Create | daemon/graphdriver/ploop/ploop.go:257-286 | An existing layer directory fails with no change and no native call. A failed create or clone returns its error. Unless a path in the layer directory is faulty, the failure removes the directory and makes no mount point. It succeeds iff the layer directory is made, the create or clone step passes, and the mount point can then be made. Success leaves a descriptor and a mount-point directory, so the layer exists. The driver's own file operations change nothing outside the layer directory, the mount point and the parent's marker. |
| Layers.Populate | daemon/graphdriver/ploop/ploop.go:267-271 | Without a parent the step is `create`: one native `Create` call whose outcome is the step's, with no change on failure. With a parent it is `clone`, which keeps an existing marker of the parent. Success leaves a descriptor file. Nothing outside the layer directory and the parent's marker changes. |
| Layers.CreateInDir | daemon/graphdriver/ploop/ploop.go:267-285 | Once the layer directory exists, the rest of `Create` succeeds iff the create or clone step passes and the mount point can then be made. The native calls are the step's. A failed step keeps its error and, unless a path in the layer directory is faulty, removes the directory and makes no mount point. Success changes nothing but the mount point after the step. |
| Layers.CreateBaseLayer | daemon/graphdriver/ploop/ploop.go:257-286 | On a home directory with a mount root, where the new layer directory and mount point are missing and can be opened, `Create` of a layer without parent succeeds whenever the native library creates its image. |
| Layers.CreateIsCloneThenMount | daemon/graphdriver/ploop/ploop.go:257-286 | A successful `Create` of a child is a successful clone into the new layer directory, after which nothing but the mount point changes. |
| Layers.CreateCopiesParent | daemon/graphdriver/ploop/ploop.go:257-286 | With native calls writing no file (see "## Left out"), after a successful `Create` of a child, the child's descriptor holds the contents of the parent's. Every `root.hdd*` entry of the parent is the same entry in the child, as they were before the call. |
| Layers.Settle | daemon/graphdriver/ploop/ploop.go:273-285 | A failed create or clone step keeps its error, and is rolled back by removing the layer directory unless a path in it is faulty. A successful one is followed by making the mount point and by nothing else. It then succeeds iff that `Mkdir` does, and otherwise returns the `Mkdir` error with nothing changed. |
| Mounts.Get | daemon/graphdriver/ploop/ploop.go:303-350 | With references held, `Get` adds exactly one reference and makes no native call. Otherwise it opens, mounts and closes. The mount is read-only iff the marker can be stat'ed, and the count becomes 1 only if open and mount both succeed. Every failure leaves the table unchanged. |
| Mounts.Put | daemon/graphdriver/ploop/ploop.go:352-378 | With more than one reference, `Put` drops one and makes no native call. Otherwise a failed open changes nothing. A successful open unmounts and deletes the record whatever the unmount returned, and "not mounted" counts as success. |
| Mounts.GetsAddReferences | daemon/graphdriver/ploop/ploop.go:309-313 | `n` Gets on a mounted layer add exactly `n` references. |
| Mounts.PutsDropReferences | daemon/graphdriver/ploop/ploop.go:356-360 | `k` Puts on a layer holding more than `k` references drop exactly `k`. |
| Mounts.NestedGetPut | daemon/graphdriver/ploop/ploop.go:303-378 | `n` Gets on an unmounted layer hold `n` references. Fewer Puts keep it mounted, and `n` Puts restore the table as it was. |
| Mounts.PutUntracked | daemon/graphdriver/ploop/ploop.go:371-376 | `Put` on a layer without a record still unmounts. It succeeds on a "not mounted" error and leaves the table as it is. |
| Scenarios.CloneRecordsSnapshot | daemon/graphdriver/ploop/ploop.go:188-254 | For a parent that is `SnapshotReady`, after a successful clone the parent's marker holds the snapshot the child was switched to. A snapshot recorded before is reused unchanged. `SnapshotReady` means: the parent directory exists; its marker can be read and written; the marker is absent or non-empty; the native snapshot id is non-empty. |
| Scenarios.CreateRecordsSnapshot | daemon/graphdriver/ploop/ploop.go:257-286 | For a `SnapshotReady` parent, the same holds for `Create` of a child. |
| Scenarios.ClonesShareSnapshot | daemon/graphdriver/ploop/ploop.go:188-213 | For a `SnapshotReady` parent, two children created from it are switched to the same snapshot, and the second creation takes none. |
| Scenarios.ParentReadOnlyAfterClone | daemon/graphdriver/ploop/ploop.go:329-337 | For a `SnapshotReady` parent, once a child was cloned from it, the first `Get` of the parent mounts it read-only. |
| Scenarios.CreateThenRemove | daemon/graphdriver/ploop/ploop.go:257-301 | A created layer exists. After a successful `Remove` it no longer does. |

## Left out

- `IsMountPoint`, `Status` and `GetMetadata` are left out. They are system-call plumbing, and `GetMetadata` writes into a nil map.
- `Cleanup` does nothing, so there is nothing to model.
- The Get/Put mutex is not modelled. Each `Get` and `Put` is one atomic step.
- Logging, `label.FormatMountLabel`, `SetVerboseLevel`, `init`/`Register` and `NaiveDiffDriver` are not modelled. The mount label is passed through as given.
- The internals of goploop are not modelled. Each native call is an oracle outcome.
- `ploop.Create` is assumed to leave the image file and the descriptor on success. No other on-disk effect of a native call is modelled.
- `Close` never fails in the model. The deferred close in `copyFile` and the close in `writeVal` are taken to succeed.
- `parsers.ParseKeyValueOpt`, `units.RAMInBytes` and `ploop.ParseImageMode` are external parsers. They are modelled as parameters that may fail.
- `Strings.ToLower`: lowers ASCII letters only. Go's Unicode case mapping is not modelled.
- Symbolic links are never followed. `Stat` of a link reports the link itself, and a path through a link is not resolved.
- Layer ids are single plain path components. Go's `path.Join` would clean an empty id, `.`, `..` or an id with `/` into some other path; the model joins every id as one component.
- A write through one name of a hard-linked file does not reach its other names. The driver never writes image files.
- `MkdirAll` that fails part-way is modelled as changing nothing.
- `RemoveAll` fails when the path itself, or an existing path below it, is faulty. The real call removes what it can before it returns the first error; the model then changes nothing.
- `Layers.Clone`: its frame covers the driver's own file operations only. The native `Close` of the parent after `Snapshot` (ploop.go:207) rewrites the parent's `DiskDescriptor.xml`, and the native `SwitchSnapshot` (ploop.go:242-250) rewrites the child's descriptor and deletes the child's link to the old top delta. Native calls write no file in this model.
- `Layers.Create`: its frame has the same limit as `Layers.Clone`'s, because of the same two native rewrites.
- `Layers.CloneCopiesParent`: it holds in the model, where native calls write no file. The real `SwitchSnapshot` rewrites the child's descriptor and removes the link to the parent's old top delta, so after the real call the copy and the full set of image links no longer hold. `Layers.ChildDescriptorCopied` and `Layers.ChildImagesLinked` state them before the native calls.
- `Layers.CreateCopiesParent`: the same limit as `Layers.CloneCopiesParent`.
- `Layers.Create`: the rollback after a failed create or clone is promised only when no path in the layer directory is faulty, because `RemoveAll`'s error is discarded at ploop.go:274.
- `Layers.Settle`: the same condition on its rollback.
- `Utils.RemoveThenReadAndWrite`: the key reads as `""` after removal only in a well-formed tree (every entry inside a directory). The tree of the model need not be one, and a file above the key would make the read fail with ENOTDIR.
- File permissions and modes are not modelled.
- `Utils.WriteVal`: a failed content write leaves an empty file, and a failed create leaves nothing. No other partial state is modelled.
- `Scenarios.CloneRecordsSnapshot`, `Scenarios.CreateRecordsSnapshot`, `Scenarios.ClonesShareSnapshot` and `Scenarios.ParentReadOnlyAfterClone` hold only for a `SnapshotReady` parent. One of its conditions is that the native `Snapshot` returns a non-empty id. With an empty id the marker would read as `""`, and the next child would take a snapshot of its own.
- `Scenarios.ClonesShareSnapshot` assumes that the parent's marker is absent or already non-empty. With an empty marker file, every clone takes its own snapshot, because `readVal` reads `""` and `writeVal` cannot replace the file. That error is ignored at ploop.go:210.

=== FILE: errors.dfy ===
/** Error values and the results the model returns in place of Go's
    `(value, error)` pairs. */
module Errors {
  import opened Paths

  /** The errors the modelled code can see.  Filesystem errors carry the
      path they are about; native and parser errors are opaque. */
  datatype Error =
    | NotExist(path: Path)              // ENOENT: os.IsNotExist holds
    | AlreadyExists(path: Path)         // EEXIST
    | NotADirectory(path: Path)         // ENOTDIR
    | IsADirectory(path: Path)          // EISDIR, or EPERM when hardlinking a directory
    | DirectoryNotEmpty(path: Path)     // ENOTEMPTY
    | IoFailure(path: Path)             // any other I/O error on the path
    | NumSyntax(text: string)           // strconv.ErrSyntax
    | NumRange(text: string)            // strconv.ErrRange
    | BadClog(text: string)             // "[ploop] Bad value for ploop.clog: %s"
    | UnknownOption(key: string)        // "[ploop] Unknown option %s"
    | NotMounted                        // the error goploop classifies as "not mounted"
    | NativeFailure(code: int)          // any other error of the native ploop library
    | ParserFailure(text: string)       // an error of an external option parser

  datatype Option<+T> = None | Some(value: T)

  datatype Result<+T> = Success(value: T) | Failure(error: Error)

  /** A Go `error` return: nil or an error. */
  datatype Outcome = Pass | Fail(error: Error)
}

=== FILE: files.dfy ===
/** An abstract filesystem with the `os` and `ioutil` operations the driver
    calls.  The tree maps every path that exists (other than the root, which
    always exists as a directory) to its entry.  Hardlinked names share an
    inode number.  Environment failures are fixed per path: a path in
    `faults.access` makes every operation that opens, creates, stats or
    removes it fail, makes `ReadDir` of the directory holding it fail, and
    makes `RemoveAll` of any directory above it fail;
    a path in `faults.data` makes reading or writing its contents fail
    after it was opened. */
module Files {
  import opened Paths
  import opened Errors
  import Strings

  datatype Entry = Directory | File(ino: nat, data: string) | Symlink(target: Path)

  datatype Faults = Faults(access: set<Path>, data: set<Path>)

  datatype Fs = Fs(tree: map<Path, Entry>, nextIno: nat, faults: Faults)

  /** The result of an operation that may leave changes behind even when it
      fails. */
  datatype Effect = Effect(out: Outcome, fs: Fs)

  function Lookup(fs: Fs, p: Path): Option<Entry>
  {
    if p == [] then Some(Directory)
    else if p in fs.tree then Some(fs.tree[p])
    else None
  }

  predicate IsDir(fs: Fs, p: Path)
  {
    Lookup(fs, p) == Some(Directory)
  }

  /** A proper ancestor of `p` is a regular file, so that looking `p` up
      fails with ENOTDIR rather than ENOENT. */
  predicate FileAbove(fs: Fs, p: Path)
  {
    exists k | 0 < k < |p| :: Lookup(fs, p[..k]).Some? && Lookup(fs, p[..k]).value.File?
  }

  /** Every entry sits in a directory, as on a real file system. */
  predicate WellFormed(fs: Fs)
  {
    forall p | p in fs.tree :: IsDir(fs, Parent(p))
  }

  /** In a well-formed tree no existing path lies below a regular file. */
  lemma {:induction false} NoFileAboveExisting(fs: Fs, p: Path)
    requires WellFormed(fs) && Lookup(fs, p).Some?
    ensures !FileAbove(fs, p)
    decreases |p|
  {
    if p != [] {
      var q := Parent(p);
      assert IsDir(fs, q);
      NoFileAboveExisting(fs, q);
      forall k | 0 < k < |p|
        ensures !(Lookup(fs, p[..k]).Some? && Lookup(fs, p[..k]).value.File?)
      {
        if k == |p| - 1 {
          assert p[..k] == q;
        } else {
          assert p[..k] == q[..k];
        }
      }
    }
  }

  /** `fs'` differs from `fs` at most at `p`, and has the same faults. */
  ghost predicate OnlyChanged(fs: Fs, fs': Fs, p: Path)
  {
    && fs'.faults == fs.faults
    && forall q :: q != p ==> Lookup(fs', q) == Lookup(fs, q)
  }

  /** A change at `c` is invisible to a lookup of `p` unless `c` is `p`
      itself or one of its ancestors. */
  lemma ChangeElsewhere(fs: Fs, fs': Fs, c: Path, p: Path)
    requires OnlyChanged(fs, fs', c) && !Under(p, c)
    ensures Lookup(fs', p) == Lookup(fs, p) && FileAbove(fs', p) == FileAbove(fs, p)
  {
    assert forall k | 0 < k < |p| :: p[..k] != c;
  }

  function Store(fs: Fs, p: Path, e: Entry): (fs': Fs)
    requires p != []
    ensures Lookup(fs', p) == Some(e)
    ensures OnlyChanged(fs, fs', p)
  {
    fs.(tree := fs.tree[p := e])
  }

  /** A new empty regular file with a fresh inode number. */
  function StoreNewFile(fs: Fs, p: Path): (fs': Fs)
    requires p != []
    ensures Lookup(fs', p) == Some(File(fs.nextIno, ""))
    ensures OnlyChanged(fs, fs', p)
    ensures fs'.nextIno == fs.nextIno + 1
  {
    Store(fs, p, File(fs.nextIno, "")).(nextIno := fs.nextIno + 1)
  }

  /** The check `os.Mkdir`, `os.OpenFile(O_CREATE)`, `os.Link` and
      `os.Symlink` make on the directory that is to hold a new name. */
  function ParentError(fs: Fs, p: Path): Option<Error>
  {
    match Lookup(fs, Parent(p))
    case None => Some(if FileAbove(fs, p) then NotADirectory(p) else NotExist(p))
    case Some(Directory) => None
    case Some(_) => Some(NotADirectory(p))
  }

  /** `os.Stat` (symbolic links are reported, not followed). */
  function Stat(fs: Fs, p: Path): (r: Result<Entry>)
    ensures r.Success? <==> p !in fs.faults.access && Lookup(fs, p).Some?
    ensures r.Success? ==> Lookup(fs, p) == Some(r.value)
    ensures r.Failure? && p !in fs.faults.access ==>
      r.error == if FileAbove(fs, p) then NotADirectory(p) else NotExist(p)
  {
    if p in fs.faults.access then Failure(IoFailure(p))
    else match Lookup(fs, p)
      case None => Failure(if FileAbove(fs, p) then NotADirectory(p) else NotExist(p))
      case Some(e) => Success(e)
  }

  /** `os.Mkdir`. */
  function Mkdir(fs: Fs, p: Path): (r: Result<Fs>)
    ensures r.Success? <==>
      p !in fs.faults.access && Lookup(fs, p).None? && IsDir(fs, Parent(p))
    ensures r.Success? ==> IsDir(r.value, p) && OnlyChanged(fs, r.value, p)
    ensures p !in fs.faults.access && Lookup(fs, p).Some? ==> r == Failure(AlreadyExists(p))
  {
    if p in fs.faults.access then Failure(IoFailure(p))
    else if Lookup(fs, p).Some? then Failure(AlreadyExists(p))
    else match ParentError(fs, p)
      case Some(e) => Failure(e)
      case None => Success(Store(fs, p, Directory))
  }

  /** Every ancestor of `p`, and `p` itself, is free of access faults and is
      either missing or a directory, so that `os.MkdirAll(p)` has nothing in
      its way. */
  predicate CanMakeAll(fs: Fs, p: Path)
  {
    forall k | 0 < k <= |p| :: p[..k] !in fs.faults.access && (Lookup(fs, p[..k]).None? || IsDir(fs, p[..k]))
  }

  /** `os.MkdirAll`: every missing ancestor of `p` and `p` itself become
      directories; existing directories are left alone.  When `os.Mkdir`
      fails, `p` is looked up once more and accepted if it is a directory. */
  function MkdirAll(fs: Fs, p: Path): (r: Result<Fs>)
    ensures r.Success? ==> IsDir(r.value, p)
    ensures r.Success? ==> r.value.faults == fs.faults
    ensures r.Success? ==> forall q :: Lookup(fs, q).Some? ==> Lookup(r.value, q) == Lookup(fs, q)
    ensures r.Success? ==> forall q :: !Under(p, q) ==> Lookup(r.value, q) == Lookup(fs, q)
    ensures r.Success? ==> forall q :: Lookup(fs, q).None? && Lookup(r.value, q).Some? ==> IsDir(r.value, q)
    ensures p != [] && p in fs.faults.access ==> r.Failure?
    ensures p !in fs.faults.access && IsDir(fs, p) ==> r == Success(fs)
    ensures p !in fs.faults.access && Lookup(fs, p).Some? && !IsDir(fs, p) ==> r == Failure(NotADirectory(p))
    ensures CanMakeAll(fs, p) ==> r.Success?
    decreases |p|
  {
    if p == [] then Success(fs)
    else match Stat(fs, p)
      case Success(Directory) => Success(fs)
      case Success(_) => assert p[..|p|] == p; Failure(NotADirectory(p))
      case Failure(_) =>
        assert CanMakeAll(fs, p) ==> CanMakeAll(fs, Parent(p)) by {
          assert forall k | 0 < k <= |Parent(p)| :: Parent(p)[..k] == p[..k];
        }
        match MkdirAll(fs, Parent(p))
        case Failure(e) => Failure(e)
        case Success(fs1) =>
          match Mkdir(fs1, p)
          case Success(fs2) => Success(fs2)
          case Failure(e) => if p !in fs1.faults.access && IsDir(fs1, p) then Success(fs1) else Failure(e)
  }

  /** `os.RemoveAll(p)` meets an access fault: on `p` itself or on an
      existing path below it. */
  predicate FaultUnder(fs: Fs, p: Path)
  {
    exists q | q in fs.faults.access :: Under(q, p) && (q == p || q in fs.tree)
  }

  /** No access fault lies at or below `p`, whatever the tree holds. */
  predicate NoFaultUnder(faults: Faults, p: Path)
  {
    forall q | q in faults.access :: !Under(q, p)
  }

  /** `os.RemoveAll`: a missing path is not an error; an access fault
      anywhere in the subtree is. */
  function RemoveAll(fs: Fs, p: Path): (r: Result<Fs>)
    ensures r.Success? <==> !FaultUnder(fs, p)
    ensures r.Success? ==> r.value.faults == fs.faults
    ensures r.Success? ==> forall q :: q != [] && Under(q, p) ==> Lookup(r.value, q) == None
    ensures r.Success? ==> forall q :: !Under(q, p) ==> Lookup(r.value, q) == Lookup(fs, q)
  {
    if FaultUnder(fs, p) then Failure(IoFailure(p))
    else Success(fs.(tree := map q | q in fs.tree && !Under(q, p) :: fs.tree[q]))
  }

  /** The file system after `os.RemoveAll(p)` whose error is discarded. */
  function RemoveAllIgnoringError(fs: Fs, p: Path): Fs
  {
    match RemoveAll(fs, p)
    case Success(fs') => fs'
    case Failure(_) => fs
  }

  predicate HasChildren(fs: Fs, p: Path)
  {
    exists q | q in fs.tree :: q != [] && Parent(q) == p
  }

  /** `os.Remove`: removes a file, a link or an empty directory. */
  function Remove(fs: Fs, p: Path): (r: Result<Fs>)
    ensures r.Success? ==> Lookup(fs, p).Some? && Lookup(r.value, p) == None
    ensures r.Success? ==> OnlyChanged(fs, r.value, p)
    ensures p !in fs.faults.access && Lookup(fs, p).Some? && !Lookup(fs, p).value.Directory? ==> r.Success?
    ensures p !in fs.faults.access && Lookup(fs, p).None? ==>
      r == Failure(if FileAbove(fs, p) then NotADirectory(p) else NotExist(p))
  {
    if p in fs.faults.access || p == [] then Failure(IoFailure(p))
    else if p !in fs.tree then Failure(if FileAbove(fs, p) then NotADirectory(p) else NotExist(p))
    else if fs.tree[p].Directory? && HasChildren(fs, p) then Failure(DirectoryNotEmpty(p))
    else Success(fs.(tree := fs.tree - {p}))
  }

  /** `os.Open` for reading: any existing entry can be opened. */
  function Open(fs: Fs, p: Path): (r: Result<Entry>)
    ensures r.Success? <==> p !in fs.faults.access && Lookup(fs, p).Some?
    ensures r.Success? ==> Lookup(fs, p) == Some(r.value)
  {
    Stat(fs, p)
  }

  /** Reading the whole contents of an opened entry: directories fail with
      EISDIR, symbolic links are not followed. */
  function ReadContents(fs: Fs, p: Path): (r: Result<string>)
    ensures r.Success? <==> p !in fs.faults.data && Lookup(fs, p).Some? && Lookup(fs, p).value.File?
    ensures r.Success? ==> r.value == Lookup(fs, p).value.data
  {
    match Lookup(fs, p)
    case None => Failure(NotExist(p))
    case Some(Directory) => Failure(IsADirectory(p))
    case Some(Symlink(_)) => Failure(IoFailure(p))
    case Some(File(_, d)) => if p in fs.faults.data then Failure(IoFailure(p)) else Success(d)
  }

  /** `ioutil.ReadFile`. */
  function ReadFile(fs: Fs, p: Path): (r: Result<string>)
    ensures r.Success? <==>
      p !in fs.faults.access && p !in fs.faults.data && Lookup(fs, p).Some? && Lookup(fs, p).value.File?
    ensures r.Success? ==> r.value == Lookup(fs, p).value.data
    ensures r.Failure? && Lookup(fs, p).None? && p !in fs.faults.access ==>
      r.error == if FileAbove(fs, p) then NotADirectory(p) else NotExist(p)
    ensures r.Failure? && Lookup(fs, p).Some? ==> !r.error.NotExist?
  {
    match Open(fs, p)
    case Failure(e) => Failure(e)
    case Success(_) => ReadContents(fs, p)
  }

  /** Writing `data` as the whole contents of the opened file `p`. */
  function WriteContents(fs: Fs, p: Path, data: string): (r: Result<Fs>)
    ensures r.Success? <==> p !in fs.faults.data && Lookup(fs, p).Some? && Lookup(fs, p).value.File?
    ensures r.Success? ==> Lookup(r.value, p) == Some(File(Lookup(fs, p).value.ino, data))
    ensures r.Success? ==> OnlyChanged(fs, r.value, p) && r.value.nextIno == fs.nextIno
  {
    match Lookup(fs, p)
    case Some(File(ino, _)) =>
      if p in fs.faults.data then Failure(IoFailure(p)) else Success(Store(fs, p, File(ino, data)))
    case _ => Failure(IoFailure(p))
  }

  /** `os.OpenFile(p, O_WRONLY|O_CREATE|O_EXCL, ...)`: creates an empty
      file and never opens an existing name. */
  function CreateExclusive(fs: Fs, p: Path): (r: Result<Fs>)
    ensures r.Success? <==>
      p !in fs.faults.access && Lookup(fs, p).None? && IsDir(fs, Parent(p))
    ensures r.Success? ==> Lookup(r.value, p) == Some(File(fs.nextIno, "")) && OnlyChanged(fs, r.value, p)
    ensures p !in fs.faults.access && Lookup(fs, p).Some? ==> r == Failure(AlreadyExists(p))
  {
    if p in fs.faults.access then Failure(IoFailure(p))
    else if Lookup(fs, p).Some? then Failure(AlreadyExists(p))
    else match ParentError(fs, p)
      case Some(e) => Failure(e)
      case None => Success(StoreNewFile(fs, p))
  }

  /** `os.Create`: creates an empty file or truncates an existing one. */
  function CreateTruncate(fs: Fs, p: Path): (r: Result<Fs>)
    ensures r.Success? ==>
      Lookup(r.value, p).Some? && Lookup(r.value, p).value.File? && Lookup(r.value, p).value.data == ""
    ensures r.Success? ==> OnlyChanged(fs, r.value, p) && p !in fs.faults.access
    ensures r.Success? <==>
      p !in fs.faults.access &&
      (if Lookup(fs, p).Some? then Lookup(fs, p).value.File? else IsDir(fs, Parent(p)))
  {
    if p in fs.faults.access then Failure(IoFailure(p))
    else match Lookup(fs, p)
      case Some(Directory) => Failure(IsADirectory(p))
      case Some(Symlink(_)) => Failure(IoFailure(p))
      case Some(File(ino, _)) => Success(Store(fs, p, File(ino, "")))
      case None =>
        match ParentError(fs, p)
        case Some(e) => Failure(e)
        case None => Success(StoreNewFile(fs, p))
  }

  /** `os.Link(src, dst)`: `dst` becomes another name of the entry `src`. */
  function Link(fs: Fs, src: Path, dst: Path): (r: Result<Fs>)
    ensures r.Success? <==>
      src !in fs.faults.access && dst !in fs.faults.access &&
      Lookup(fs, src).Some? && !Lookup(fs, src).value.Directory? &&
      Lookup(fs, dst).None? && IsDir(fs, Parent(dst))
    ensures r.Success? ==> Lookup(r.value, dst) == Lookup(fs, src) && OnlyChanged(fs, r.value, dst)
  {
    if src in fs.faults.access then Failure(IoFailure(src))
    else if dst in fs.faults.access then Failure(IoFailure(dst))
    else match Lookup(fs, src)
      case None => Failure(NotExist(src))
      case Some(Directory) => Failure(IsADirectory(src))
      case Some(e) =>
        if Lookup(fs, dst).Some? then Failure(AlreadyExists(dst))
        else match ParentError(fs, dst)
          case Some(err) => Failure(err)
          case None => Success(Store(fs, dst, e))
  }

  /** `os.Symlink(target, p)`. */
  function MakeSymlink(fs: Fs, target: Path, p: Path): (r: Result<Fs>)
    ensures r.Success? <==> p !in fs.faults.access && Lookup(fs, p).None? && IsDir(fs, Parent(p))
    ensures r.Success? ==> Lookup(r.value, p) == Some(Symlink(target)) && OnlyChanged(fs, r.value, p)
  {
    if p in fs.faults.access then Failure(IoFailure(p))
    else if Lookup(fs, p).Some? then Failure(AlreadyExists(p))
    else match ParentError(fs, p)
      case Some(e) => Failure(e)
      case None => Success(Store(fs, p, Symlink(target)))
  }

  /** The names directly inside directory `p`. */
  function Children(fs: Fs, p: Path): (names: set<string>)
    ensures forall n :: n in names <==> Join(p, n) in fs.tree
  {
    var names := set q | q in fs.tree && |q| == |p| + 1 && q[..|p|] == p :: q[|p|];
    assert forall n :: Join(p, n) in fs.tree ==> n in names by {
      forall n | Join(p, n) in fs.tree
        ensures n in names
      {
        var q := Join(p, n);
        assert q[..|p|] == p && q[|p|] == n;
      }
    }
    assert forall n :: n in names ==> Join(p, n) in fs.tree by {
      forall n | n in names
        ensures Join(p, n) in fs.tree
      {
        var q :| q in fs.tree && |q| == |p| + 1 && q[..|p|] == p && q[|p|] == n;
        assert q == Join(p, n);
      }
    }
    names
  }

  /** Some entry directly inside `p` is access-faulty. */
  predicate FaultyChild(fs: Fs, p: Path)
  {
    exists q | q in fs.tree :: q != [] && Parent(q) == p && q in fs.faults.access
  }

  /** Whether a directory has a faulty entry depends only on its entries. */
  lemma FaultyChildFrame(fs: Fs, fs': Fs, p: Path)
    requires fs'.faults == fs.faults
    requires forall n :: Lookup(fs', Join(p, n)) == Lookup(fs, Join(p, n))
    ensures FaultyChild(fs', p) == FaultyChild(fs, p)
  {
    forall q | q != [] && Parent(q) == p
      ensures (q in fs'.tree) == (q in fs.tree)
    {
      assert q == Join(p, q[|q| - 1]);
    }
  }

  /** `ioutil.ReadDir`: the names inside a directory, sorted by name.  Every
      entry is looked up as it is listed, so an access fault on one of them
      fails the whole listing. */
  function ReadDir(fs: Fs, p: Path): (r: Result<seq<string>>)
    ensures r.Success? <==> p !in fs.faults.access && IsDir(fs, p) && !FaultyChild(fs, p)
    ensures r.Success? ==> Strings.StrictlySorted(r.value)
    ensures r.Success? ==> forall n :: n in r.value <==> Join(p, n) in fs.tree
    ensures r.Success? ==> forall n :: n in r.value ==> Join(p, n) !in fs.faults.access
  {
    if p in fs.faults.access then Failure(IoFailure(p))
    else match Lookup(fs, p)
      case None => Failure(NotExist(p))
      case Some(Directory) =>
        if FaultyChild(fs, p) then Failure(IoFailure(p))
        else
          assert forall n :: Join(p, n) in fs.tree ==> Join(p, n) !in fs.faults.access by {
            forall n | Join(p, n) in fs.tree ensures Join(p, n) !in fs.faults.access {
              ParentOfJoin(p, n);
            }
          }
          Success(Strings.SortedList(Children(fs, p)))
      case Some(_) => Failure(NotADirectory(p))
  }
}

=== FILE: layers.dfy ===
/** Layer creation (daemon/graphdriver/ploop/ploop.go): a fresh image for a
    layer without parent, otherwise a clone of the parent that shares one
    snapshot of the parent among all its children. */
module Layers {
  import opened Paths
  import opened Errors
  import opened Strings
  import opened Files
  import opened Native
  import opened Utils
  import opened Ploop

  datatype LayerStep = LayerStep(out: Outcome, fs: Fs, calls: seq<Call>)

  /** The parameters `create` passes to `ploop.Create`. */
  function CreateParamFor(d: Driver, id: string): CreateParam
  {
    CreateParam(d.size, d.mode, ImageFile(d, id), d.clog, true)
  }

  /** What a successful `ploop.Create` leaves on disk: the base image and
      the disk descriptor beside it, both new files. */
  function NewImageFiles(d: Driver, fs: Fs, id: string): (fs': Fs)
    ensures Lookup(fs', Descriptor(d, id)).Some? && Lookup(fs', Descriptor(d, id)).value.File?
    ensures Lookup(fs', ImageFile(d, id)).Some? && Lookup(fs', ImageFile(d, id)).value.File?
    ensures fs'.faults == fs.faults
    ensures forall q :: q != Descriptor(d, id) && q != ImageFile(d, id) ==> Lookup(fs', q) == Lookup(fs, q)
  {
    StoreNewFile(StoreNewFile(fs, ImageFile(d, id)), Descriptor(d, id))
  }

  /** `create(id)`: a new image with the driver's size, mode and cluster
      log, made by the native library. */
  function CreateImage(d: Driver, fs: Fs, lib: Library, id: string): (r: LayerStep)
    ensures r.calls == [Native.Create(CreateParam(d.size, d.mode, ImageFile(d, id), d.clog, true))]
    ensures r.out == lib.create(CreateParamFor(d, id))
    ensures r.out.Fail? ==> r.fs == fs
    ensures r.out.Pass? ==> Lookup(r.fs, Descriptor(d, id)).Some? && Lookup(r.fs, Descriptor(d, id)).value.File?
    ensures r.fs.faults == fs.faults
    ensures forall q :: !Under(q, LayerDir(d, id)) ==> Lookup(r.fs, q) == Lookup(fs, q)
  {
    var cp := CreateParamFor(d, id);
    match lib.create(cp)
    case Fail(e) => LayerStep(Fail(e), fs, [Native.Create(cp)])
    case Pass => LayerStep(Pass, NewImageFiles(d, fs, id), [Native.Create(cp)])
  }

  /** `markParent`: the debugging link `<id>/parent -> ../<parent>`. */
  function MarkParent(d: Driver, fs: Fs, id: string, parent: string): (r: Effect)
    ensures r.out.Pass? ==> Lookup(r.fs, Join(LayerDir(d, id), ParentLinkName)) == Some(Symlink(["..", parent]))
    ensures r.out.Fail? ==> r.fs == fs
    ensures OnlyChanged(fs, r.fs, Join(LayerDir(d, id), ParentLinkName))
    ensures forall q :: Lookup(fs, q).Some? ==> Lookup(r.fs, q) == Lookup(fs, q)
    ensures forall q :: !Under(q, LayerDir(d, id)) ==> Lookup(r.fs, q) == Lookup(fs, q)
  {
    match MakeSymlink(fs, ["..", parent], Join(LayerDir(d, id), ParentLinkName))
    case Failure(e) => Effect(Fail(e), fs)
    case Success(fs') => Effect(Pass, fs')
  }

  /** A path `dir/name` whose name carries the image-file prefix. */
  predicate IsImageUnder(q: Path, dir: Path)
  {
    |q| == |dir| + 1 && q[..|dir|] == dir && HasPrefix(q[|dir|], ImagePrefix)
  }

  /** Nothing in the way of `os.Link(pdir/n, dir/n)`: the source is an
      entry other than a directory, the target name is free, and both can
      be opened. */
  predicate CanLink(fs: Fs, pdir: Path, dir: Path, n: string)
  {
    && Join(pdir, n) !in fs.faults.access && Join(dir, n) !in fs.faults.access
    && Lookup(fs, Join(pdir, n)).Some? && !Lookup(fs, Join(pdir, n)).value.Directory?
    && Lookup(fs, Join(dir, n)).None? && IsDir(fs, dir)
  }

  /** The hardlink loop of `clone`: every listed name with the image-file
      prefix is linked from `pdir` into `dir`, in order; the first failing
      link stops the loop. */
  function LinkImages(fs: Fs, pdir: Path, dir: Path, names: seq<string>): (r: Effect)
    ensures r.fs.faults == fs.faults
    ensures forall q :: !IsImageUnder(q, dir) ==> Lookup(r.fs, q) == Lookup(fs, q)
    ensures forall q :: Lookup(fs, q).Some? ==> Lookup(r.fs, q) == Lookup(fs, q)
    ensures r.out.Pass? && pdir != dir ==>
      forall n | n in names && HasPrefix(n, ImagePrefix) :: Lookup(r.fs, Join(dir, n)) == Lookup(fs, Join(pdir, n))
    decreases |names|
  {
    if names == [] then Effect(Pass, fs)
    else
      var name := names[0];
      if !HasPrefix(name, ImagePrefix) then LinkImages(fs, pdir, dir, names[1..])
      else
        match Link(fs, Join(pdir, name), Join(dir, name))
        case Failure(e) => Effect(Fail(e), fs)
        case Success(fs1) =>
          assert IsImageUnder(Join(dir, name), dir);
          assert forall n :: pdir != dir ==> Join(pdir, n) != Join(dir, name);
          LinkImages(fs1, pdir, dir, names[1..])
  }

  /** Between two different directories, the hardlink loop over a list
      without repeated names succeeds exactly when every listed image name
      can be linked in the filesystem it started from: a link never gets
      in the way of a later one. */
  lemma {:induction false} LinkImagesSucceedsIff(fs: Fs, pdir: Path, dir: Path, names: seq<string>)
    ensures pdir != dir && NoDuplicates(names) ==>
      (LinkImages(fs, pdir, dir, names).out.Pass? <==>
        forall n | n in names && HasPrefix(n, ImagePrefix) :: CanLink(fs, pdir, dir, n))
    decreases |names|
  {
    if names != [] && pdir != dir && NoDuplicates(names) {
      var name := names[0];
      assert NoDuplicates(names[1..]) && name !in names[1..];
      assert forall n :: n in names <==> n == name || n in names[1..];
      if !HasPrefix(name, ImagePrefix) {
        LinkImagesSucceedsIff(fs, pdir, dir, names[1..]);
      } else {
        ParentOfJoin(dir, name);
        match Link(fs, Join(pdir, name), Join(dir, name))
        case Failure(_) =>
        case Success(fs1) =>
          assert forall n :: Join(pdir, n) != Join(dir, name);
          assert forall n :: n != name ==> Join(dir, n) != Join(dir, name);
          assert dir != Join(dir, name);
          LinkImagesSucceedsIff(fs1, pdir, dir, names[1..]);
      }
    }
  }

  /** The descriptor, the snapshot marker and the parent link are never
      taken for image files. */
  lemma ReservedNamesAreNotImages()
    ensures !HasPrefix(DescriptorName, ImagePrefix)
    ensures !HasPrefix(MarkerKey, ImagePrefix)
    ensures !HasPrefix(ParentLinkName, ImagePrefix)
  {
    assert DescriptorName[0] != ImagePrefix[0];
    assert MarkerKey[0] != ImagePrefix[0];
    assert ParentLinkName[0] != ImagePrefix[0];
  }

  /** Paths inside two different layer directories are different, and so
      are two different names inside one directory. */
  lemma LayerPathsDistinct(d: Driver, id: string, parent: string)
    ensures parent != id ==> forall n :: !Under(Join(LayerDir(d, parent), n), LayerDir(d, id))
    ensures parent != id ==> !Under(LayerDir(d, parent), LayerDir(d, id))
    ensures forall a, b :: a != b ==> Join(LayerDir(d, id), a) != Join(LayerDir(d, id), b)
  {
    if parent != id {
      forall n ensures !Under(Join(LayerDir(d, parent), n), LayerDir(d, id)) {
        assert Join(LayerDir(d, parent), n)[|d.home|] == parent;
      }
      assert LayerDir(d, parent)[|d.home|] == parent;
    }
    forall a, b | a != b ensures Join(LayerDir(d, id), a) != Join(LayerDir(d, id), b) {
      assert Join(LayerDir(d, id), a)[|d.home| + 1] == a;
    }
  }

  /** Nothing in the way of the listing and hardlink loop of `clone`: the
      parent directory and every entry in it can be opened, and every
      image file in it can be linked into `dir`. */
  ghost predicate CanHardlinkImages(fs: Fs, pdir: Path, dir: Path)
  {
    && pdir !in fs.faults.access && IsDir(fs, pdir) && !FaultyChild(fs, pdir)
    && forall n | Join(pdir, n) in fs.tree && HasPrefix(n, ImagePrefix) :: CanLink(fs, pdir, dir, n)
  }

  /** Whether the hardlink loop can run depends only on the two directories
      and on the entries and image names inside them. */
  lemma CanHardlinkImagesFrame(fs: Fs, fs': Fs, pdir: Path, dir: Path)
    requires fs'.faults == fs.faults
    requires Lookup(fs', pdir) == Lookup(fs, pdir) && Lookup(fs', dir) == Lookup(fs, dir)
    requires forall n :: Lookup(fs', Join(pdir, n)) == Lookup(fs, Join(pdir, n))
    requires forall n | HasPrefix(n, ImagePrefix) :: Lookup(fs', Join(dir, n)) == Lookup(fs, Join(dir, n))
    ensures CanHardlinkImages(fs', pdir, dir) == CanHardlinkImages(fs, pdir, dir)
  {
    FaultyChildFrame(fs, fs', pdir);
    assert forall n :: (Join(pdir, n) in fs'.tree) == (Join(pdir, n) in fs.tree);
  }

  /** The listing and hardlink loop of `clone` (ploop.go:222-240). */
  function HardlinkImages(fs: Fs, pdir: Path, dir: Path): (r: Effect)
    ensures r.fs.faults == fs.faults
    ensures forall q :: !IsImageUnder(q, dir) ==> Lookup(r.fs, q) == Lookup(fs, q)
    ensures forall q :: Lookup(fs, q).Some? ==> Lookup(r.fs, q) == Lookup(fs, q)
    ensures r.out.Pass? ==> IsDir(fs, pdir)
    ensures r.out.Pass? && pdir != dir ==>
      forall n | Join(pdir, n) in fs.tree && HasPrefix(n, ImagePrefix) :: Lookup(r.fs, Join(dir, n)) == Lookup(fs, Join(pdir, n))
  {
    match ReadDir(fs, pdir)
    case Failure(e) => Effect(Fail(e), fs)
    case Success(names) => LinkImages(fs, pdir, dir, names)
  }

  /** The listing and hardlink loop succeeds exactly when nothing is in
      its way. */
  lemma HardlinkImagesSucceedsIff(fs: Fs, pdir: Path, dir: Path)
    ensures pdir != dir ==> (HardlinkImages(fs, pdir, dir).out.Pass? <==> CanHardlinkImages(fs, pdir, dir))
  {
    if ReadDir(fs, pdir).Success? {
      LinkImagesSucceedsIff(fs, pdir, dir, ReadDir(fs, pdir).value);
    }
  }

  /** The hardlink step of `clone` seen from the child: it leaves the
      child's descriptor alone and succeeds only on a listable parent. */
  function LinkIntoChild(d: Driver, fs: Fs, id: string, parent: string): (r: Effect)
    ensures r.fs.faults == fs.faults
    ensures forall q :: !IsImageUnder(q, LayerDir(d, id)) ==> Lookup(r.fs, q) == Lookup(fs, q)
    ensures forall q :: !Under(q, LayerDir(d, id)) ==> Lookup(r.fs, q) == Lookup(fs, q)
    ensures forall q :: Lookup(fs, q).Some? ==> Lookup(r.fs, q) == Lookup(fs, q)
    ensures Lookup(r.fs, Descriptor(d, id)) == Lookup(fs, Descriptor(d, id))
    ensures r.out.Pass? ==> IsDir(fs, LayerDir(d, parent))
  {
    var dir := LayerDir(d, id);
    ReservedNamesAreNotImages();
    assert Descriptor(d, id)[|dir|] == DescriptorName;
    HardlinkImages(fs, LayerDir(d, parent), dir)
  }

  /** The descriptor copy of `clone`: the child's descriptor becomes a
      copy of the parent's. */
  function CopyDescriptor(d: Driver, fs: Fs, id: string, parent: string): (r: Effect)
    ensures OnlyChanged(fs, r.fs, Descriptor(d, id))
    ensures forall q :: !Under(q, LayerDir(d, id)) ==> Lookup(r.fs, q) == Lookup(fs, q)
    ensures r.out.Pass? ==> Lookup(r.fs, Descriptor(d, id)).Some? && Lookup(r.fs, Descriptor(d, id)).value.File?
    ensures r.out.Pass? && parent != id ==>
      var pdd := Descriptor(d, parent);
      Lookup(fs, pdd).Some? && Lookup(fs, pdd).value.File? &&
      Lookup(r.fs, Descriptor(d, id)).value.data == Lookup(fs, pdd).value.data
  {
    assert parent != id ==> Descriptor(d, parent)[|d.home|] != Descriptor(d, id)[|d.home|];
    CopyFile(fs, Descriptor(d, parent), Descriptor(d, id))
  }

  /** The filesystem part of `clone` (ploop.go:215-240): link to the
      parent, copy the parent's descriptor, hardlink the parent's image
      files. */
  function PopulateChild(d: Driver, fs: Fs, id: string, parent: string): (r: Effect)
    ensures r.fs.faults == fs.faults
    ensures forall q :: !Under(q, LayerDir(d, id)) ==> Lookup(r.fs, q) == Lookup(fs, q)
    ensures forall q :: q != Descriptor(d, id) && Lookup(fs, q).Some? ==> Lookup(r.fs, q) == Lookup(fs, q)
    ensures r.out.Pass? ==> Lookup(r.fs, Descriptor(d, id)).Some? && Lookup(r.fs, Descriptor(d, id)).value.File?
    ensures r.out.Pass? ==> IsDir(fs, LayerDir(d, parent))
  {
    var dd := Descriptor(d, id);
    var fs1 := MarkParent(d, fs, id, parent).fs;   // its error is ignored
    var c := CopyDescriptor(d, fs1, id, parent);
    if c.out.Fail? then c
    else
      assert |LayerDir(d, parent)| < |Join(LayerDir(d, id), ParentLinkName)|;
      LinkIntoChild(d, c.fs, id, parent)
  }

  /** Populating a child succeeds exactly when the parent's descriptor can
      be copied and the parent's image files can be listed and linked, all
      judged on the filesystem before the call. */
  lemma PopulateChildSucceedsIff(d: Driver, fs: Fs, id: string, parent: string)
    ensures parent != id ==>
      (PopulateChild(d, fs, id, parent).out.Pass? <==>
        CanCopy(fs, Descriptor(d, parent), Descriptor(d, id)) &&
        CanHardlinkImages(fs, LayerDir(d, parent), LayerDir(d, id)))
  {
    var fs1 := MarkParent(d, fs, id, parent).fs;
    var c := CopyDescriptor(d, fs1, id, parent);
    CopyUnaffectedByMark(d, fs, id, parent);
    if c.out.Pass? && parent != id {
      assert LayerDir(d, parent)[|d.home|] == parent;
      HardlinkImagesSucceedsIff(c.fs, LayerDir(d, parent), LayerDir(d, id));
      HardlinkUnaffectedByCopy(d, fs, c.fs, id, parent);
    }
  }

  /** The parent link is not in the way of the descriptor copy. */
  lemma CopyUnaffectedByMark(d: Driver, fs: Fs, id: string, parent: string)
    ensures parent != id ==>
      CanCopy(MarkParent(d, fs, id, parent).fs, Descriptor(d, parent), Descriptor(d, id)) ==
      CanCopy(fs, Descriptor(d, parent), Descriptor(d, id))
  {
    var dir := LayerDir(d, id);
    var link := Join(dir, ParentLinkName);
    ParentOfJoin(dir, DescriptorName);
    assert Descriptor(d, parent)[|d.home|] == parent;
    assert Descriptor(d, id)[|dir|] != link[|dir|];
    assert dir != link;
  }

  /** Marking the parent and copying the descriptor are not in the way of
      the hardlink loop. */
  lemma HardlinkUnaffectedByCopy(d: Driver, fs: Fs, fs': Fs, id: string, parent: string)
    requires fs'.faults == fs.faults
    requires forall q :: !Under(q, LayerDir(d, id)) ==> Lookup(fs', q) == Lookup(fs, q)
    requires forall q :: q != Descriptor(d, id) && q != Join(LayerDir(d, id), ParentLinkName) ==> Lookup(fs', q) == Lookup(fs, q)
    ensures parent != id ==> CanHardlinkImages(fs', LayerDir(d, parent), LayerDir(d, id)) == CanHardlinkImages(fs, LayerDir(d, parent), LayerDir(d, id))
  {
    if parent != id {
      var dir := LayerDir(d, id);
      LayerPathsDistinct(d, id, parent);
      ReservedNamesAreNotImages();
      forall n | HasPrefix(n, ImagePrefix)
        ensures Join(dir, n) != Descriptor(d, id) && Join(dir, n) != Join(dir, ParentLinkName)
      {
        assert Join(dir, n)[|dir|] == n;
      }
      assert dir != Descriptor(d, id) && dir != Join(dir, ParentLinkName);
      CanHardlinkImagesFrame(fs, fs', LayerDir(d, parent), dir);
    }
  }

  /** A cloned child's descriptor is a copy of its parent's. */
  lemma ChildDescriptorCopied(d: Driver, fs: Fs, id: string, parent: string)
    requires parent != id
    ensures PopulateChild(d, fs, id, parent).out.Pass? ==>
      var pdd := Descriptor(d, parent);
      Lookup(fs, pdd).Some? && Lookup(fs, pdd).value.File? &&
      Lookup(PopulateChild(d, fs, id, parent).fs, Descriptor(d, id)).value.data == Lookup(fs, pdd).value.data
  {
    if PopulateChild(d, fs, id, parent).out.Pass? {
      LayerPathsDistinct(d, id, parent);
      assert Descriptor(d, parent) != Join(LayerDir(d, id), ParentLinkName);
    }
  }

  /** A cloned child holds a hardlink of every image file of its parent. */
  lemma ChildImagesLinked(d: Driver, fs: Fs, id: string, parent: string, n: string)
    requires parent != id && HasPrefix(n, ImagePrefix)
    ensures PopulateChild(d, fs, id, parent).out.Pass? && Join(LayerDir(d, parent), n) in fs.tree ==>
      Lookup(PopulateChild(d, fs, id, parent).fs, Join(LayerDir(d, id), n)) == Lookup(fs, Join(LayerDir(d, parent), n))
  {
    if PopulateChild(d, fs, id, parent).out.Pass? && Join(LayerDir(d, parent), n) in fs.tree {
      var dir, dd := LayerDir(d, id), Descriptor(d, id);
      var pdir := LayerDir(d, parent);
      LayerPathsDistinct(d, id, parent);
      var fs1 := MarkParent(d, fs, id, parent).fs;
      var c := CopyDescriptor(d, fs1, id, parent);
      assert Join(pdir, n) != Join(dir, ParentLinkName) && Join(pdir, n) != dd;
      assert Lookup(c.fs, Join(pdir, n)) == Lookup(fs, Join(pdir, n));
    }
  }

  /** Apart from its descriptor and the parent link, a cloned child
      receives only names with the image-file prefix. */
  lemma ChildGetsOnlyImages(d: Driver, fs: Fs, id: string, parent: string, n: string)
    requires !HasPrefix(n, ImagePrefix) && n != DescriptorName && n != ParentLinkName
    ensures Lookup(PopulateChild(d, fs, id, parent).fs, Join(LayerDir(d, id), n)) == Lookup(fs, Join(LayerDir(d, id), n))
  {
    var dir, dd := LayerDir(d, id), Descriptor(d, id);
    var pdir, pdd := LayerDir(d, parent), Descriptor(d, parent);
    LayerPathsDistinct(d, id, parent);
    var q := Join(dir, n);
    assert q != Join(dir, ParentLinkName) && q != dd;
    assert !IsImageUnder(q, dir) by {
      assert q[|dir|] == n;
    }
  }

  /** A populated child links back to its parent's directory whenever the
      link could be made. */
  lemma ChildLinksParent(d: Driver, fs: Fs, id: string, parent: string)
    ensures var link := Join(LayerDir(d, id), ParentLinkName);
      PopulateChild(d, fs, id, parent).out.Pass? &&
      link !in fs.faults.access && Lookup(fs, link).None? && IsDir(fs, LayerDir(d, id)) ==>
        Lookup(PopulateChild(d, fs, id, parent).fs, link) == Some(Symlink(["..", parent]))
  {
    var link := Join(LayerDir(d, id), ParentLinkName);
    ParentOfJoin(LayerDir(d, id), ParentLinkName);
    assert link != Descriptor(d, id) by {
      assert link[|LayerDir(d, id)|] == ParentLinkName;
    }
  }

  /** The part of `clone` after the snapshot is known (ploop.go:215-254):
      the child is populated from the parent and switched to the snapshot. */
  function CloneFromSnapshot(d: Driver, fs: Fs, lib: Library, id: string, parent: string, snap: string): (r: LayerStep)
    ensures var dd := Descriptor(d, id);
      r.out.Pass? <==>
        PopulateChild(d, fs, id, parent).out.Pass? && lib.open(dd).Pass? && lib.switchSnapshot(dd, snap).Pass?
    // the first step that fails decides the error
    ensures PopulateChild(d, fs, id, parent).out.Fail? ==> r.out == PopulateChild(d, fs, id, parent).out && r.calls == []
    ensures PopulateChild(d, fs, id, parent).out.Pass? && lib.open(Descriptor(d, id)).Fail? ==>
      r.out == lib.open(Descriptor(d, id)) && r.calls == [Open(Descriptor(d, id))]
    ensures PopulateChild(d, fs, id, parent).out.Pass? && lib.open(Descriptor(d, id)).Pass? ==>
      r.out == lib.switchSnapshot(Descriptor(d, id), snap)
    ensures r.fs == PopulateChild(d, fs, id, parent).fs
    ensures forall c | c in r.calls :: c == Open(Descriptor(d, id)) || c == SwitchSnapshot(Descriptor(d, id), snap) || c == Close(Descriptor(d, id))
    ensures r.out.Pass? ==>
      r.calls == [Open(Descriptor(d, id)), SwitchSnapshot(Descriptor(d, id), snap), Close(Descriptor(d, id))]
  {
    SwitchToSnapshot(d, PopulateChild(d, fs, id, parent), lib, id, snap)
  }

  /** The native tail of `clone` on the populated child `p`: open its
      descriptor and switch it to the snapshot. */
  function SwitchToSnapshot(d: Driver, p: Effect, lib: Library, id: string, snap: string): (r: LayerStep)
    ensures var dd := Descriptor(d, id);
      r.out.Pass? <==> p.out.Pass? && lib.open(dd).Pass? && lib.switchSnapshot(dd, snap).Pass?
    ensures p.out.Fail? ==> r.out == p.out && r.calls == []
    ensures p.out.Pass? && lib.open(Descriptor(d, id)).Fail? ==>
      r.out == lib.open(Descriptor(d, id)) && r.calls == [Open(Descriptor(d, id))]
    ensures p.out.Pass? && lib.open(Descriptor(d, id)).Pass? ==>
      r.out == lib.switchSnapshot(Descriptor(d, id), snap)
    ensures r.fs == p.fs
    ensures forall c | c in r.calls :: c == Open(Descriptor(d, id)) || c == SwitchSnapshot(Descriptor(d, id), snap) || c == Close(Descriptor(d, id))
    ensures r.out.Pass? ==>
      r.calls == [Open(Descriptor(d, id)), SwitchSnapshot(Descriptor(d, id), snap), Close(Descriptor(d, id))]
  {
    var dd := Descriptor(d, id);
    if p.out.Fail? then LayerStep(p.out, p.fs, [])
    else if lib.open(dd).Fail? then LayerStep(lib.open(dd), p.fs, [Open(dd)])
    else LayerStep(lib.switchSnapshot(dd, snap), p.fs, [Open(dd), SwitchSnapshot(dd, snap), Close(dd)])
  }

  /** Recording a new snapshot in the parent's marker
      (`writeVal(pdir, "uuid-for-children", snap)`), with its error
      discarded. */
  function RecordSnapshot(d: Driver, fs: Fs, parent: string, uuid: string): (fs': Fs)
    ensures OnlyChanged(fs, fs', Marker(d, parent))
    ensures Lookup(fs, Marker(d, parent)).Some? ==> fs' == fs
    ensures var m := Marker(d, parent);
      Lookup(fs, m).None? && m !in fs.faults.access && m !in fs.faults.data && IsDir(fs, LayerDir(d, parent)) ==>
        Lookup(fs', m).Some? && ReadVal(fs', LayerDir(d, parent), MarkerKey) == Success(uuid)
  {
    WriteVal(fs, LayerDir(d, parent), MarkerKey, uuid).fs
  }

  /** `clone` once a new snapshot `uuid` of the parent was taken: record
      it, then continue as for a recorded snapshot. */
  function CloneAfterSnapshot(d: Driver, fs: Fs, lib: Library, id: string, parent: string, uuid: string): (r: LayerStep)
    ensures r.fs.faults == fs.faults
    ensures forall q :: !Under(q, LayerDir(d, id)) && q != Marker(d, parent) ==> Lookup(r.fs, q) == Lookup(fs, q)
    ensures forall q :: q != Descriptor(d, id) && Lookup(fs, q).Some? ==> Lookup(r.fs, q) == Lookup(fs, q)
    ensures r.out.Pass? ==> Lookup(r.fs, Descriptor(d, id)).Some? && Lookup(r.fs, Descriptor(d, id)).value.File?
    ensures forall c | c in r.calls :: !c.Snapshot?
    ensures r.out.Pass? ==>
      r.calls == [Open(Descriptor(d, id)), SwitchSnapshot(Descriptor(d, id), uuid), Close(Descriptor(d, id))]
    ensures var dd := Descriptor(d, id);
      r.out.Pass? <==>
        && PopulateChild(d, RecordSnapshot(d, fs, parent, uuid), id, parent).out.Pass?
        && lib.open(dd).Pass? && lib.switchSnapshot(dd, uuid).Pass?
    ensures var m := Marker(d, parent);
      Lookup(fs, m).None? && m !in fs.faults.access && m !in fs.faults.data && IsDir(fs, LayerDir(d, parent)) ==>
        ReadVal(r.fs, LayerDir(d, parent), MarkerKey) == Success(uuid)
  {
    var fs1 := RecordSnapshot(d, fs, parent, uuid);
    assert Marker(d, parent) != Descriptor(d, id) by {
      assert Marker(d, parent)[|LayerDir(d, parent)|] == MarkerKey;
    }
    CloneFromSnapshot(d, fs1, lib, id, parent, uuid)
  }

  /** The branch of `clone` for a parent without a recorded snapshot
      (ploop.go:193-210): open the parent, take a snapshot, close the parent
      and record the snapshot in the marker (a failure to record it is
      ignored), then continue as for a recorded snapshot. */
  function CloneWithNewSnapshot(d: Driver, fs: Fs, lib: Library, id: string, parent: string): (r: LayerStep)
    ensures r.fs.faults == fs.faults
    ensures forall q :: !Under(q, LayerDir(d, id)) && q != Marker(d, parent) ==> Lookup(r.fs, q) == Lookup(fs, q)
    ensures Lookup(fs, Marker(d, parent)).Some? ==> Lookup(r.fs, Marker(d, parent)) == Lookup(fs, Marker(d, parent))
    ensures r.out.Pass? ==> Lookup(r.fs, Descriptor(d, id)).Some? && Lookup(r.fs, Descriptor(d, id)).value.File?
    ensures var pdd := Descriptor(d, parent);
      && (lib.open(pdd).Fail? ==> r.out == lib.open(pdd) && r.fs == fs && r.calls == [Open(pdd)])
      && (lib.open(pdd).Pass? ==>
            && |r.calls| >= 3 && r.calls[..3] == [Open(pdd), Snapshot(pdd), Close(pdd)]
            && (forall c | c in r.calls[3..] :: !c.Snapshot?))
      && (lib.open(pdd).Pass? && lib.snapshot(pdd).Failure? ==> r.out == Fail(lib.snapshot(pdd).error) && r.fs == fs)
      && (lib.open(pdd).Pass? && lib.snapshot(pdd).Success? ==>
            r.fs == CloneAfterSnapshot(d, fs, lib, id, parent, lib.snapshot(pdd).value).fs)
      && (lib.open(pdd).Pass? && lib.snapshot(pdd).Success? && r.out.Pass? ==>
            r.calls[3..] == [Open(Descriptor(d, id)), SwitchSnapshot(Descriptor(d, id), lib.snapshot(pdd).value), Close(Descriptor(d, id))])
    ensures var pdd, dd := Descriptor(d, parent), Descriptor(d, id);
      r.out.Pass? <==>
        && lib.open(pdd).Pass? && lib.snapshot(pdd).Success?
        && PopulateChild(d, RecordSnapshot(d, fs, parent, lib.snapshot(pdd).value), id, parent).out.Pass?
        && lib.open(dd).Pass? && lib.switchSnapshot(dd, lib.snapshot(pdd).value).Pass?
  {
    var pdd := Descriptor(d, parent);
    match lib.open(pdd)
    case Fail(e) => LayerStep(Fail(e), fs, [Open(pdd)])
    case Pass =>
      var taken := [Open(pdd), Snapshot(pdd), Close(pdd)];
      match lib.snapshot(pdd)
      case Failure(e) => LayerStep(Fail(e), fs, taken)
      case Success(uuid) =>
        var rest := CloneAfterSnapshot(d, fs, lib, id, parent, uuid);
        assert (taken + rest.calls)[..3] == taken && (taken + rest.calls)[3..] == rest.calls;
        LayerStep(rest.out, rest.fs, taken + rest.calls)
  }

  /** `clone(id, parent)` (ploop.go:179-255): reuse the parent's snapshot
      when its marker holds one, otherwise take and record a new one. */
  function Clone(d: Driver, fs: Fs, lib: Library, id: string, parent: string): (r: LayerStep)
    ensures r.fs.faults == fs.faults
    ensures forall q :: !Under(q, LayerDir(d, id)) && q != Marker(d, parent) ==> Lookup(r.fs, q) == Lookup(fs, q)
    ensures Lookup(fs, Marker(d, parent)).Some? ==> Lookup(r.fs, Marker(d, parent)) == Lookup(fs, Marker(d, parent))
    ensures r.out.Pass? ==> Lookup(r.fs, Descriptor(d, id)).Some? && Lookup(r.fs, Descriptor(d, id)).value.File?
    ensures ReadVal(fs, LayerDir(d, parent), MarkerKey).Failure? ==>
      r == LayerStep(Fail(ReadVal(fs, LayerDir(d, parent), MarkerKey).error), fs, [])
    // a recorded snapshot is reused: no snapshot is taken
    ensures var m := ReadVal(fs, LayerDir(d, parent), MarkerKey);
      m.Success? && m.value != "" ==>
        && (forall c | c in r.calls :: !c.Snapshot?)
        && (r.out.Pass? ==> r.calls == [Open(Descriptor(d, id)), SwitchSnapshot(Descriptor(d, id), m.value), Close(Descriptor(d, id))])
    ensures var m, dd := ReadVal(fs, LayerDir(d, parent), MarkerKey), Descriptor(d, id);
      m.Success? && m.value != "" ==>
        && (r.out.Pass? <==>
              PopulateChild(d, fs, id, parent).out.Pass? && lib.open(dd).Pass? && lib.switchSnapshot(dd, m.value).Pass?)
        && r == CloneFromSnapshot(d, fs, lib, id, parent, m.value)
    // no recorded snapshot: a new one is taken first
    ensures ReadVal(fs, LayerDir(d, parent), MarkerKey) == Success("") ==>
      r.out == CloneWithNewSnapshot(d, fs, lib, id, parent).out &&
      r.fs == CloneWithNewSnapshot(d, fs, lib, id, parent).fs &&
      r.calls == CloneWithNewSnapshot(d, fs, lib, id, parent).calls
  {
    var pdir := LayerDir(d, parent);
    assert Marker(d, parent) != Descriptor(d, id) by {
      assert Marker(d, parent)[|pdir|] == MarkerKey;
    }
    match ReadVal(fs, pdir, MarkerKey)
    case Failure(e) => LayerStep(Fail(e), fs, [])
    case Success(snap) =>
      if snap != "" then CloneFromSnapshot(d, fs, lib, id, parent, snap)
      else CloneWithNewSnapshot(d, fs, lib, id, parent)
  }

  /** In this model, where native calls write no file, a successful
      `clone` leaves the child with a copy of the parent's descriptor and a
      hardlink of every parent image file, as both were before the clone:
      recording a new snapshot touches neither.  The real `Close` of the
      parent and `SwitchSnapshot` of the child rewrite descriptors and drop
      a delta, which this model does not follow. */
  lemma CloneCopiesParent(d: Driver, fs: Fs, lib: Library, id: string, parent: string, n: string)
    requires parent != id && HasPrefix(n, ImagePrefix)
    ensures var r, pdd := Clone(d, fs, lib, id, parent), Descriptor(d, parent);
      r.out.Pass? ==>
        Lookup(fs, pdd).Some? && Lookup(fs, pdd).value.File? &&
        Lookup(r.fs, Descriptor(d, id)).value.data == Lookup(fs, pdd).value.data
    ensures var r, src := Clone(d, fs, lib, id, parent), Join(LayerDir(d, parent), n);
      r.out.Pass? && src in fs.tree ==> Lookup(r.fs, Join(LayerDir(d, id), n)) == Lookup(fs, src)
  {
    var r := Clone(d, fs, lib, id, parent);
    if r.out.Pass? {
      var pdir, pdd := LayerDir(d, parent), Descriptor(d, parent);
      var m := ReadVal(fs, pdir, MarkerKey);
      var fs0 := if m.value != "" then fs else RecordSnapshot(d, fs, parent, lib.snapshot(pdd).value);
      assert r.fs == PopulateChild(d, fs0, id, parent).fs && PopulateChild(d, fs0, id, parent).out.Pass?;
      ReservedNamesAreNotImages();
      assert pdd != Marker(d, parent) && Join(pdir, n) != Marker(d, parent) by {
        assert pdd[|pdir|] == DescriptorName && Join(pdir, n)[|pdir|] == n;
      }
      ChildDescriptorCopied(d, fs0, id, parent);
      if Join(pdir, n) in fs.tree {
        assert Lookup(fs0, Join(pdir, n)) == Lookup(fs, Join(pdir, n));
        ChildImagesLinked(d, fs0, id, parent, n);
      }
    }
  }

  /** Layout facts for valid ids: the mount point of a layer is neither
      inside its layer directory nor the marker of its parent, and the
      parent's marker is outside the child's directory. */
  lemma LayoutDisjoint(d: Driver, id: string, parent: string)
    ensures ValidId(id) ==> !Under(MountDir(d, id), LayerDir(d, id))
    ensures parent != MountRootName ==> MountDir(d, id) != Marker(d, parent)
    ensures parent != id ==> !Under(Marker(d, parent), LayerDir(d, id))
    ensures MountDir(d, id) != Descriptor(d, id)
    ensures MountDir(d, id) != LayerDir(d, id)
    ensures Marker(d, parent) != LayerDir(d, id)
  {
    assert MountDir(d, id)[|d.home|] == MountRootName;
    assert Marker(d, parent)[|d.home|] == parent;
    assert LayerDir(d, id)[|d.home|] == id;
    assert MountDir(d, id)[|d.home| + 1] == id && Descriptor(d, id)[|d.home| + 1] == DescriptorName;
    assert |Marker(d, parent)| == |d.home| + 2 == |MountDir(d, id)|;
  }

  /** The step of `Create` between its two `Mkdir`s: `create` for a layer
      without parent, `clone` otherwise. */
  function Populate(d: Driver, fs: Fs, lib: Library, id: string, parent: string): (r: LayerStep)
    ensures r.fs.faults == fs.faults
    ensures forall q :: !Under(q, LayerDir(d, id)) && q != Marker(d, parent) ==> Lookup(r.fs, q) == Lookup(fs, q)
    ensures r.out.Pass? ==> Lookup(r.fs, Descriptor(d, id)).Some? && Lookup(r.fs, Descriptor(d, id)).value.File?
    // without a parent: one native `Create`, whose failure changes nothing
    ensures parent == "" ==>
      && r.out == lib.create(CreateParamFor(d, id)) && r.calls == [Native.Create(CreateParamFor(d, id))]
      && (r.out.Fail? ==> r.fs == fs)
    // with a parent: its recorded snapshot marker is kept
    ensures parent != "" && Lookup(fs, Marker(d, parent)).Some? ==>
      Lookup(r.fs, Marker(d, parent)) == Lookup(fs, Marker(d, parent))
  {
    if parent == "" then CreateImage(d, fs, lib, id) else Clone(d, fs, lib, id, parent)
  }

  /** The end of `Create`: a failed create/clone step `p` is rolled back
      by removing the layer directory, a successful one is followed by
      making the mount point. */
  function Settle(d: Driver, p: LayerStep, id: string): (r: LayerStep)
    ensures r.fs.faults == p.fs.faults && r.calls == p.calls
    ensures r.out.Pass? ==> p.out.Pass?
    ensures p.out.Fail? ==> r.out == p.out
    ensures p.out.Fail? && !FaultUnder(p.fs, LayerDir(d, id)) ==>
      forall q :: Under(q, LayerDir(d, id)) ==> Lookup(r.fs, q) == None
    ensures p.out.Fail? ==> forall q :: !Under(q, LayerDir(d, id)) ==> Lookup(r.fs, q) == Lookup(p.fs, q)
    ensures p.out.Pass? ==> forall q :: q != MountDir(d, id) ==> Lookup(r.fs, q) == Lookup(p.fs, q)
    ensures r.out.Pass? ==> IsDir(r.fs, MountDir(d, id))
    ensures p.out.Pass? ==> (r.out.Pass? <==> Mkdir(p.fs, MountDir(d, id)).Success?)
    ensures p.out.Pass? && r.out.Fail? ==> r.out == Fail(Mkdir(p.fs, MountDir(d, id)).error) && r.fs == p.fs
  {
    if p.out.Fail? then LayerStep(p.out, RemoveAllIgnoringError(p.fs, LayerDir(d, id)), p.calls)
    else
      match Mkdir(p.fs, MountDir(d, id))
      case Failure(e) => LayerStep(Fail(e), p.fs, p.calls)
      case Success(fs2) => LayerStep(Pass, fs2, p.calls)
  }

  /** `Create` once the layer directory is made. */
  function CreateInDir(d: Driver, fs: Fs, lib: Library, id: string, parent: string): (r: LayerStep)
    ensures r.fs.faults == fs.faults
    ensures r.calls == Populate(d, fs, lib, id, parent).calls
    ensures r.out.Pass? <==>
      Populate(d, fs, lib, id, parent).out.Pass? && Mkdir(Populate(d, fs, lib, id, parent).fs, MountDir(d, id)).Success?
    ensures Populate(d, fs, lib, id, parent).out.Fail? ==> r.out == Populate(d, fs, lib, id, parent).out
    ensures Populate(d, fs, lib, id, parent).out.Fail? && NoFaultUnder(fs.faults, LayerDir(d, id)) ==>
      && (forall q :: Under(q, LayerDir(d, id)) ==> Lookup(r.fs, q) == None)
      && (ValidId(id) && (parent == "" || ValidId(parent)) ==> Lookup(r.fs, MountDir(d, id)) == Lookup(fs, MountDir(d, id)))
    ensures r.out.Pass? ==> IsDir(r.fs, MountDir(d, id)) && Lookup(r.fs, Descriptor(d, id)).Some?
    ensures r.out.Pass? ==> forall q :: q != MountDir(d, id) ==> Lookup(r.fs, q) == Lookup(Populate(d, fs, lib, id, parent).fs, q)
    ensures forall q :: !Under(q, LayerDir(d, id)) && q != MountDir(d, id) && q != Marker(d, parent) ==>
      Lookup(r.fs, q) == Lookup(fs, q)
  {
    LayoutDisjoint(d, id, parent);
    Settle(d, Populate(d, fs, lib, id, parent), id)
  }

  /** `Create(id, parent)` (ploop.go:257-286). */
  function Create(d: Driver, fs: Fs, lib: Library, id: string, parent: string): (r: LayerStep)
    ensures r.fs.faults == fs.faults
    // an existing layer directory is an error and nothing changes
    ensures Lookup(fs, LayerDir(d, id)).Some? ==> r.out.Fail? && r.fs == fs && r.calls == []
    ensures Lookup(fs, LayerDir(d, id)).Some? && LayerDir(d, id) !in fs.faults.access ==>
      r.out == Fail(AlreadyExists(LayerDir(d, id)))
    // the create/clone step decides the native calls
    ensures Mkdir(fs, LayerDir(d, id)).Success? ==>
      r.calls == Populate(d, Mkdir(fs, LayerDir(d, id)).value, lib, id, parent).calls
    ensures var m := Mkdir(fs, LayerDir(d, id));
      r.out.Pass? <==>
        && m.Success? && Populate(d, m.value, lib, id, parent).out.Pass?
        && Mkdir(Populate(d, m.value, lib, id, parent).fs, MountDir(d, id)).Success?
    // a failed create/clone is rolled back and no mount point is made
    ensures var m := Mkdir(fs, LayerDir(d, id));
      m.Success? && Populate(d, m.value, lib, id, parent).out.Fail? ==>
        r.out == Populate(d, m.value, lib, id, parent).out
    ensures var m := Mkdir(fs, LayerDir(d, id));
      m.Success? && Populate(d, m.value, lib, id, parent).out.Fail? && NoFaultUnder(fs.faults, LayerDir(d, id)) ==>
        && (forall q :: Under(q, LayerDir(d, id)) ==> Lookup(r.fs, q) == None)
        && (ValidId(id) && (parent == "" || ValidId(parent)) ==> Lookup(r.fs, MountDir(d, id)) == Lookup(fs, MountDir(d, id)))
    // success: the layer exists and has its mount point
    ensures r.out.Pass? ==> IsDir(r.fs, MountDir(d, id)) && Lookup(r.fs, Descriptor(d, id)).Some?
    ensures r.out.Pass? && Descriptor(d, id) !in fs.faults.access ==> Exists(d, r.fs, id)
    // nothing outside the layer, its mount point and its parent's marker
    // changes by the driver's own file operations
    ensures forall q :: !Under(q, LayerDir(d, id)) && q != MountDir(d, id) && q != Marker(d, parent) ==>
      Lookup(r.fs, q) == Lookup(fs, q)
  {
    match Mkdir(fs, LayerDir(d, id))
    case Failure(e) => LayerStep(Fail(e), fs, [])
    case Success(fs1) =>
      LayoutDisjoint(d, id, parent);
      CreateInDir(d, fs1, lib, id, parent)
  }

  /** A successful `Create` of a child is a successful clone into the new
      layer directory, after which only the mount point is made. */
  lemma CreateIsCloneThenMount(d: Driver, fs: Fs, lib: Library, id: string, parent: string)
    requires parent != ""
    ensures var r := Create(d, fs, lib, id, parent);
      r.out.Pass? ==>
        && Mkdir(fs, LayerDir(d, id)).Success?
        && Clone(d, Mkdir(fs, LayerDir(d, id)).value, lib, id, parent).out.Pass?
        && forall q :: q != MountDir(d, id) ==>
             Lookup(r.fs, q) == Lookup(Clone(d, Mkdir(fs, LayerDir(d, id)).value, lib, id, parent).fs, q)
  {
    if Create(d, fs, lib, id, parent).out.Pass? {
      var fs1 := Mkdir(fs, LayerDir(d, id)).value;
      assert Create(d, fs, lib, id, parent) == CreateInDir(d, fs1, lib, id, parent);
    }
  }

  /** In this model, where native calls write no file, a successful
      `Create` of a child leaves it with a copy of the parent's descriptor
      and a hardlink of every parent image file, as both were before the
      call. */
  lemma CreateCopiesParent(d: Driver, fs: Fs, lib: Library, id: string, parent: string, n: string)
    requires parent != "" && parent != id && ValidId(id) && HasPrefix(n, ImagePrefix)
    ensures var r, pdd := Create(d, fs, lib, id, parent), Descriptor(d, parent);
      r.out.Pass? ==>
        Lookup(fs, pdd).Some? && Lookup(fs, pdd).value.File? &&
        Lookup(r.fs, Descriptor(d, id)).value.data == Lookup(fs, pdd).value.data
    ensures var r, src := Create(d, fs, lib, id, parent), Join(LayerDir(d, parent), n);
      r.out.Pass? && src in fs.tree ==> Lookup(r.fs, Join(LayerDir(d, id), n)) == Lookup(fs, src)
  {
    if Create(d, fs, lib, id, parent).out.Pass? {
      var dir, pdir := LayerDir(d, id), LayerDir(d, parent);
      CreateIsCloneThenMount(d, fs, lib, id, parent);
      var fs1 := Mkdir(fs, dir).value;
      CloneCopiesParent(d, fs1, lib, id, parent, n);
      assert Join(dir, n) != MountDir(d, id) && Descriptor(d, id) != MountDir(d, id) by {
        assert MountDir(d, id)[|d.home|] == MountRootName && Join(dir, n)[|d.home|] == id;
      }
      assert |Descriptor(d, parent)| == |Join(pdir, n)| == |dir| + 1;
    }
  }

  /** On a home directory with a mount root and room for the new layer and
      its mount point, a layer without parent is created whenever the
      native library creates its image. */
  lemma CreateBaseLayer(d: Driver, fs: Fs, lib: Library, id: string)
    ensures
      (&& ValidId(id) && IsDir(fs, d.home) && IsDir(fs, MountRoot(d.home))
       && Lookup(fs, LayerDir(d, id)).None? && LayerDir(d, id) !in fs.faults.access
       && Lookup(fs, MountDir(d, id)).None? && MountDir(d, id) !in fs.faults.access
       && lib.create(CreateParamFor(d, id)).Pass?) ==>
      Create(d, fs, lib, id, "").out.Pass?
  {
    if ValidId(id) && IsDir(fs, d.home) && Lookup(fs, LayerDir(d, id)).None? && LayerDir(d, id) !in fs.faults.access {
      ParentOfJoin(d.home, id);
      ParentOfJoin(MountRoot(d.home), id);
      var fs1 := Mkdir(fs, LayerDir(d, id)).value;
      assert MountDir(d, id)[|d.home|] == MountRootName && MountRoot(d.home)[|d.home|] == MountRootName;
      assert Marker(d, "")[|d.home|] == "";
      assert Lookup(fs1, MountDir(d, id)) == Lookup(fs, MountDir(d, id));
      assert Lookup(fs1, MountRoot(d.home)) == Lookup(fs, MountRoot(d.home));
    }
  }
}

=== FILE: mounts.dfy ===
/** The mount reference counter of `Get` and `Put`
    (daemon/graphdriver/ploop/ploop.go).  Each call is one atomic step under
    the driver's Get/Put mutex. */
module Mounts {
  import opened Paths
  import opened Errors
  import opened Files
  import opened Native
  import opened Ploop

  /** `d.mounts[id]`: a Go map yields 0 for a missing key. */
  function Count(mounts: map<string, int>, id: string): int
  {
    if id in mounts then mounts[id] else 0
  }

  /** Every tracked layer holds at least one reference. */
  ghost predicate CountsPositive(mounts: map<string, int>)
  {
    forall id | id in mounts :: mounts[id] >= 1
  }

  /** The mount parameters of the first `Get`: read-only iff the layer's
      snapshot marker can be stat'ed. */
  function MountParamFor(d: Driver, fs: Fs, id: string, mountLabel: string): MountParam
  {
    MountParam(MountDir(d, id), Stat(fs, Marker(d, id)).Success?, mountLabel)
  }

  datatype GetStep = GetStep(path: Result<Path>, drv: Driver, calls: seq<Call>)

  datatype PutStep = PutStep(out: Outcome, drv: Driver, calls: seq<Call>)

  /** `Get(id, mountLabel)`. */
  function Get(d: Driver, fs: Fs, lib: Library, id: string, mountLabel: string): (r: GetStep)
    // nested Get: one more reference, no native call
    ensures Count(d.mounts, id) > 0 ==>
      && r.path == Success(MountDir(d, id))
      && r.drv == d.(mounts := d.mounts[id := Count(d.mounts, id) + 1])
      && r.calls == []
    // first Get: open, mount (read-only iff the marker exists), close
    ensures Count(d.mounts, id) <= 0 ==>
      var dd := Descriptor(d, id);
      && (lib.open(dd).Fail? ==> r.path == Failure(lib.open(dd).error) && r.calls == [Open(dd)])
      && (lib.open(dd).Pass? ==>
            exists ro: bool ::
              && (ro <==> Lookup(fs, Marker(d, id)).Some? && Marker(d, id) !in fs.faults.access)
              && r.calls == [Open(dd), Mount(dd, MountParam(MountDir(d, id), ro, mountLabel)), Close(dd)]
              && (r.path.Success? <==> lib.mount(dd, MountParam(MountDir(d, id), ro, mountLabel)).Pass?))
      && (r.path.Success? ==> r.path.value == MountDir(d, id) && r.drv == d.(mounts := d.mounts[id := 1]))
    ensures r.path.Failure? ==> r.drv == d
    ensures CountsPositive(d.mounts) ==> CountsPositive(r.drv.mounts)
  {
    var mnt := MountDir(d, id);
    var count := Count(d.mounts, id);
    if count > 0 then
      GetStep(Success(mnt), d.(mounts := d.mounts[id := count + 1]), [])
    else
      var dd := Descriptor(d, id);
      match lib.open(dd)
      case Fail(e) => GetStep(Failure(e), d, [Open(dd)])
      case Pass =>
        var mp := MountParamFor(d, fs, id, mountLabel);
        var calls := [Open(dd), Mount(dd, mp), Close(dd)];
        match lib.mount(dd, mp)
        case Fail(e) => GetStep(Failure(e), d, calls)
        case Pass => GetStep(Success(mnt), d.(mounts := d.mounts[id := 1]), calls)
  }

  /** `Put(id)`. */
  function Put(d: Driver, lib: Library, id: string): (r: PutStep)
    // a reference remains: decrement, no native call
    ensures Count(d.mounts, id) > 1 ==>
      r.out == Pass && r.drv == d.(mounts := d.mounts[id := Count(d.mounts, id) - 1]) && r.calls == []
    // last (or no) reference, open fails: error, nothing changes
    ensures Count(d.mounts, id) <= 1 && lib.open(Descriptor(d, id)).Fail? ==>
      r.out == lib.open(Descriptor(d, id)) && r.drv == d && r.calls == [Open(Descriptor(d, id))]
    // last (or no) reference, open succeeds: unmount, forget the record
    // whatever the unmount returned, "not mounted" counts as success
    ensures Count(d.mounts, id) <= 1 && lib.open(Descriptor(d, id)).Pass? ==>
      var dd := Descriptor(d, id);
      var u := lib.umount(dd);
      && r.drv == d.(mounts := d.mounts - {id})
      && r.calls == [Open(dd), Umount(dd), Close(dd)]
      && (r.out.Pass? <==> u.Pass? || IsNotMounted(u.error))
      && (r.out.Fail? ==> r.out == u)
    ensures CountsPositive(d.mounts) ==> CountsPositive(r.drv.mounts)
  {
    var count := Count(d.mounts, id);
    if count > 1 then
      PutStep(Pass, d.(mounts := d.mounts[id := count - 1]), [])
    else
      var dd := Descriptor(d, id);
      match lib.open(dd)
      case Fail(e) => PutStep(Fail(e), d, [Open(dd)])
      case Pass =>
        var err := lib.umount(dd);
        var out := if err.Fail? && IsNotMounted(err.error) then Pass else err;
        PutStep(out, d.(mounts := d.mounts - {id}), [Open(dd), Umount(dd), Close(dd)])
  }

  /** The driver after `n` calls of `Get(id)`. */
  function Gets(d: Driver, fs: Fs, lib: Library, id: string, mountLabel: string, n: nat): Driver
    decreases n
  {
    if n == 0 then d else Gets(Get(d, fs, lib, id, mountLabel).drv, fs, lib, id, mountLabel, n - 1)
  }

  /** The driver after `n` calls of `Put(id)`. */
  function Puts(d: Driver, lib: Library, id: string, n: nat): Driver
    decreases n
  {
    if n == 0 then d else Puts(Put(d, lib, id).drv, lib, id, n - 1)
  }

  /** The native side lets layer `id` be opened and mounted. */
  predicate Mountable(d: Driver, fs: Fs, lib: Library, id: string, mountLabel: string)
  {
    var dd := Descriptor(d, id);
    lib.open(dd).Pass? && lib.mount(dd, MountParamFor(d, fs, id, mountLabel)).Pass?
  }

  /** `n` further Gets on a mounted layer add exactly `n` references. */
  lemma {:induction false} GetsAddReferences(d: Driver, fs: Fs, lib: Library, id: string, mountLabel: string, n: nat)
    requires Count(d.mounts, id) > 0
    ensures Gets(d, fs, lib, id, mountLabel, n) == d.(mounts := d.mounts[id := Count(d.mounts, id) + n])
    decreases n
  {
    if n > 0 {
      var d1 := Get(d, fs, lib, id, mountLabel).drv;
      GetsAddReferences(d1, fs, lib, id, mountLabel, n - 1);
      assert d1.mounts[id := Count(d1.mounts, id) + (n - 1)] == d.mounts[id := Count(d.mounts, id) + n];
    }
  }

  /** `k` Puts on a layer holding more than `k` references only drop `k` of
      them: the layer stays mounted. */
  lemma {:induction false} PutsDropReferences(d: Driver, lib: Library, id: string, k: nat)
    requires Count(d.mounts, id) > k
    ensures Puts(d, lib, id, k) == d.(mounts := d.mounts[id := Count(d.mounts, id) - k])
    decreases k
  {
    if k > 0 {
      var d1 := Put(d, lib, id).drv;
      PutsDropReferences(d1, lib, id, k - 1);
      assert d1.mounts[id := Count(d1.mounts, id) - (k - 1)] == d.mounts[id := Count(d.mounts, id) - k];
    }
  }

  /** `n` Gets on an unmounted layer mount it once and hold `n` references. */
  lemma FirstGets(d: Driver, fs: Fs, lib: Library, id: string, mountLabel: string, n: nat)
    requires id !in d.mounts && n >= 1
    requires Mountable(d, fs, lib, id, mountLabel)
    ensures Gets(d, fs, lib, id, mountLabel, n) == d.(mounts := d.mounts[id := n])
  {
    var d1 := Get(d, fs, lib, id, mountLabel).drv;
    assert d1 == d.(mounts := d.mounts[id := 1]);
    GetsAddReferences(d1, fs, lib, id, mountLabel, n - 1);
    assert d1.mounts[id := 1 + (n - 1)] == d.mounts[id := n];
  }

  /** As many Puts as a layer holds references unmount it and drop its
      record, when the native side lets it be opened. */
  lemma AllPuts(d: Driver, lib: Library, id: string, n: nat)
    requires n >= 1 && Count(d.mounts, id) == n && lib.open(Descriptor(d, id)).Pass?
    ensures Puts(d, lib, id, n).mounts == d.mounts - {id}
  {
    PutsDropReferences(d, lib, id, n - 1);
    var last := Puts(d, lib, id, n - 1);
    assert last.mounts == d.mounts[id := 1];
    PutsSplit(d, lib, id, n - 1, 1);
    assert Put(last, lib, id).drv.mounts == d.mounts[id := 1] - {id};
    assert d.mounts[id := 1] - {id} == d.mounts - {id};
  }

  /** N Gets on an unmounted layer followed by N Puts leave the reference
      table as it was; after fewer Puts the layer is still mounted. */
  lemma NestedGetPut(d: Driver, fs: Fs, lib: Library, id: string, mountLabel: string, n: nat, k: nat)
    requires id !in d.mounts && n >= 1 && k < n
    requires Mountable(d, fs, lib, id, mountLabel)
    ensures Count(Gets(d, fs, lib, id, mountLabel, n).mounts, id) == n
    ensures Count(Puts(Gets(d, fs, lib, id, mountLabel, n), lib, id, k).mounts, id) == n - k
    ensures Puts(Gets(d, fs, lib, id, mountLabel, n), lib, id, n).mounts == d.mounts
  {
    FirstGets(d, fs, lib, id, mountLabel, n);
    var dn := Gets(d, fs, lib, id, mountLabel, n);
    PutsDropReferences(dn, lib, id, k);
    AllPuts(dn, lib, id, n);
    assert d.mounts[id := n] - {id} == d.mounts;
  }

  lemma {:induction false} PutsSplit(d: Driver, lib: Library, id: string, a: nat, b: nat)
    ensures Puts(d, lib, id, a + b) == Puts(Puts(d, lib, id, a), lib, id, b)
    decreases a
  {
    if a > 0 {
      PutsSplit(Put(d, lib, id).drv, lib, id, a - 1, b);
    }
  }

  /** Put on a layer that was never mounted keeps the table as it is and
      succeeds when the native unmount succeeds or reports "not mounted". */
  lemma PutUntracked(d: Driver, lib: Library, id: string)
    requires id !in d.mounts && lib.open(Descriptor(d, id)).Pass?
    requires lib.umount(Descriptor(d, id)).Pass? || IsNotMounted(lib.umount(Descriptor(d, id)).error)
    ensures Put(d, lib, id).out == Pass && Put(d, lib, id).drv == d
  {
    assert d.mounts - {id} == d.mounts;
  }
}

=== FILE: native.dfy ===
/** The native ploop library (goploop) as the driver sees it: every call
    either succeeds or returns an error, as decided by a `Library` value that
    stands for the native side.  The model records the calls it makes, in
    order, so that properties can say which native calls an operation makes. */
module Native {
  import opened Paths
  import opened Errors

  /** `ploop.ImageMode`. */
  datatype ImageMode = Expanded | Preallocated | Raw

  /** `ploop.CreateParam`; `noLazy` stands for `Flags: ploop.NoLazy`. */
  datatype CreateParam = CreateParam(size: nat, mode: ImageMode, file: Path, clog: nat, noLazy: bool)

  /** `ploop.MountParam`; `data` is the mount label passed through. */
  datatype MountParam = MountParam(target: Path, readonly: bool, data: string)

  /** A native call, named by the disk descriptor it is made on. */
  datatype Call =
    | Open(dd: Path)
    | Close(dd: Path)
    | Mount(dd: Path, mountParam: MountParam)
    | Umount(dd: Path)
    | Snapshot(dd: Path)
    | SwitchSnapshot(dd: Path, uuid: string)
    | Create(createParam: CreateParam)

  /** The outcome of each native call. */
  datatype Library = Library(
    open: Path -> Outcome,
    mount: (Path, MountParam) -> Outcome,
    umount: Path -> Outcome,
    snapshot: Path -> Result<string>,
    switchSnapshot: (Path, string) -> Outcome,
    create: CreateParam -> Outcome)

  /** `ploop.IsNotMounted(err)`. */
  predicate IsNotMounted(e: Error)
  {
    e.NotMounted?
  }
}

=== FILE: options.dfy ===
/** The option loop of `Init` (daemon/graphdriver/ploop/ploop.go): every
    option is a `key=value` string; keys are compared in lower case and only
    `ploop.size`, `ploop.mode` and `ploop.clog` are known. */
module Options {
  import opened Errors
  import opened Strings
  import opened Native

  type Int64 = x: int | -0x8000_0000_0000_0000 <= x < 0x8000_0000_0000_0000

  const DefaultSize: Int64 := 8589934592   // 8 GiB
  const DefaultClog: Int64 := 9            // 256 KiB cluster blocks
  const MinClog := 6
  const MaxClog := 16

  const SizeKey := "ploop.size"
  const ModeKey := "ploop.mode"
  const ClogKey := "ploop.clog"

  /** The configuration the option loop builds: the image size in bytes,
      the image mode and the cluster-block log. */
  datatype Config = Config(size: Int64, mode: ImageMode, clog: Int64)

  const Defaults := Config(DefaultSize, Expanded, DefaultClog)

  /** The parsers the loop calls and that live outside the driver:
      `parsers.ParseKeyValueOpt`, `units.RAMInBytes` and
      `ploop.ParseImageMode`.  Each may fail. */
  datatype Parsers = Parsers(
    keyValue: string -> Result<(string, string)>,
    ramInBytes: string -> Result<Int64>,
    imageMode: string -> Result<ImageMode>)

  predicate IsKnownKey(key: string)
  {
    key == SizeKey || key == ModeKey || key == ClogKey
  }

  predicate ValidClog(cl: int)
  {
    MinClog <= cl <= MaxClog
  }

  /** One iteration of the loop: the `switch` on the lower-cased key. */
  function ApplyOption(cfg: Config, key: string, val: string, ps: Parsers): (r: Result<Config>)
    ensures r.Success? ==> IsKnownKey(ToLower(key))
    ensures !IsKnownKey(ToLower(key)) ==> r == Failure(UnknownOption(ToLower(key)))
    ensures ToLower(key) == ClogKey ==>
      (r.Success? <==> ParseInt8(val).Success? && ValidClog(ParseInt8(val).value))
    ensures ToLower(key) == ClogKey && r.Success? ==> r.value == cfg.(clog := ParseInt8(val).value)
    ensures ToLower(key) == ClogKey && r.Failure? ==> r.error == BadClog(val)
    ensures ToLower(key) == SizeKey ==>
      (r.Success? <==> ps.ramInBytes(val).Success?) &&
      (r.Success? ==> r.value == cfg.(size := ps.ramInBytes(val).value)) &&
      (r.Failure? ==> r.error == ps.ramInBytes(val).error)
    ensures ToLower(key) == ModeKey ==>
      (r.Success? <==> ps.imageMode(val).Success?) &&
      (r.Success? ==> r.value == cfg.(mode := ps.imageMode(val).value)) &&
      (r.Failure? ==> r.error == ps.imageMode(val).error)
  {
    var k := ToLower(key);
    if k == SizeKey then
      match ps.ramInBytes(val)
      case Failure(e) => Failure(e)
      case Success(s) => Success(cfg.(size := s))
    else if k == ModeKey then
      match ps.imageMode(val)
      case Failure(e) => Failure(e)
      case Success(m) => Success(cfg.(mode := m))
    else if k == ClogKey then
      match ParseInt8(val)
      case Failure(_) => Failure(BadClog(val))
      case Success(cl) => if cl < MinClog || cl > MaxClog then Failure(BadClog(val)) else Success(cfg.(clog := cl))
    else
      Failure(UnknownOption(k))
  }

  /** True iff option `opt` splits into a key/value pair whose lower-cased
      key is known. */
  predicate Accepted(opt: string, ps: Parsers)
  {
    ps.keyValue(opt).Success? && IsKnownKey(ToLower(ps.keyValue(opt).value.0))
  }

  /** True iff option `opt` splits into a pair whose lower-cased key is `key`. */
  predicate HasKey(opt: string, ps: Parsers, key: string)
  {
    ps.keyValue(opt).Success? && ToLower(ps.keyValue(opt).value.0) == key
  }

  /** The value part of an option that splits. */
  function ValueOf(opt: string, ps: Parsers): string
    requires ps.keyValue(opt).Success?
  {
    ps.keyValue(opt).value.1
  }

  /** True iff the `switch` accepts option `opt` whatever was parsed before
      it: the option splits, its key is known and its value parses for that
      key (a cluster log also has to lie in [6, 16]). */
  predicate OptionOk(opt: string, ps: Parsers)
  {
    && ps.keyValue(opt).Success?
    && var val := ValueOf(opt, ps);
      || (HasKey(opt, ps, SizeKey) && ps.ramInBytes(val).Success?)
      || (HasKey(opt, ps, ModeKey) && ps.imageMode(val).Success?)
      || (HasKey(opt, ps, ClogKey) && ParseInt8(val).Success? && ValidClog(ParseInt8(val).value))
  }

  /** The error the loop returns for an option it does not accept. */
  function OptionError(opt: string, ps: Parsers): Error
    requires !OptionOk(opt, ps)
  {
    if ps.keyValue(opt).Failure? then ps.keyValue(opt).error
    else
      var val := ValueOf(opt, ps);
      if HasKey(opt, ps, SizeKey) then ps.ramInBytes(val).error
      else if HasKey(opt, ps, ModeKey) then ps.imageMode(val).error
      else if HasKey(opt, ps, ClogKey) then BadClog(val)
      else UnknownOption(ToLower(ps.keyValue(opt).value.0))
  }

  /** `opts[i]` is the last option with lower-cased key `key`. */
  predicate IsLast(opts: seq<string>, ps: Parsers, key: string, i: int)
  {
    0 <= i < |opts| && HasKey(opts[i], ps, key) && forall j | i < j < |opts| :: !HasKey(opts[j], ps, key)
  }

  /** No option has lower-cased key `key`. */
  predicate Absent(opts: seq<string>, ps: Parsers, key: string)
  {
    forall i | 0 <= i < |opts| :: !HasKey(opts[i], ps, key)
  }

  /** The whole loop, starting from configuration `cfg`: it succeeds iff
      every option is accepted; otherwise the first option that is not
      accepted decides the error.  The lemmas below say which option sets
      each field. */
  function ParseOptions(opts: seq<string>, ps: Parsers, cfg: Config): (r: Result<Config>)
    ensures r.Success? <==> forall i | 0 <= i < |opts| :: OptionOk(opts[i], ps)
    ensures r.Success? ==> forall i | 0 <= i < |opts| :: Accepted(opts[i], ps)
    ensures r.Success? && ValidClog(cfg.clog) ==> ValidClog(r.value.clog)
    ensures r.Failure? ==> exists i | 0 <= i < |opts| ::
      && !OptionOk(opts[i], ps)
      && (forall j | 0 <= j < i :: OptionOk(opts[j], ps))
      && r.error == OptionError(opts[i], ps)
    decreases |opts|
  {
    if opts == [] then Success(cfg)
    else
      match ps.keyValue(opts[0])
      case Failure(e) => Failure(e)
      case Success(kv) =>
        match ApplyOption(cfg, kv.0, kv.1, ps)
        case Failure(e) => Failure(e)
        case Success(cfg') => ParseOptions(opts[1..], ps, cfg')
  }

  /** Dropping the first option keeps "no option has `key`" and moves the
      last option with `key` one place down. */
  lemma ShiftKeys(opts: seq<string>, ps: Parsers, key: string)
    requires opts != []
    ensures Absent(opts, ps, key) <==> !HasKey(opts[0], ps, key) && Absent(opts[1..], ps, key)
    ensures forall i | 0 < i < |opts| :: IsLast(opts, ps, key, i) <==> IsLast(opts[1..], ps, key, i - 1)
    ensures IsLast(opts, ps, key, 0) <==> HasKey(opts[0], ps, key) && Absent(opts[1..], ps, key)
  {
    var rest := opts[1..];
    assert forall j | 0 <= j < |rest| :: rest[j] == opts[j + 1];
    assert Absent(opts, ps, key) <== !HasKey(opts[0], ps, key) && Absent(rest, ps, key) by {
      if !HasKey(opts[0], ps, key) && Absent(rest, ps, key) {
        forall i | 0 <= i < |opts| ensures !HasKey(opts[i], ps, key) {
          if i > 0 { assert opts[i] == rest[i - 1]; }
        }
      }
    }
  }

  /** The image size is the last `ploop.size` option's, or `cfg`'s when
      there is none. */
  lemma {:induction false} LastSizeWins(opts: seq<string>, ps: Parsers, cfg: Config)
    ensures var r := ParseOptions(opts, ps, cfg);
      r.Success? && Absent(opts, ps, SizeKey) ==> r.value.size == cfg.size
    ensures var r := ParseOptions(opts, ps, cfg);
      r.Success? ==> forall i | IsLast(opts, ps, SizeKey, i) ::
        r.value.size == ps.ramInBytes(ValueOf(opts[i], ps)).value
    decreases |opts|
  {
    var r := ParseOptions(opts, ps, cfg);
    if opts != [] && r.Success? {
      var kv := ps.keyValue(opts[0]).value;
      var cfg' := ApplyOption(cfg, kv.0, kv.1, ps).value;
      LastSizeWins(opts[1..], ps, cfg');
      ShiftKeys(opts, ps, SizeKey);
      assert cfg'.size == if HasKey(opts[0], ps, SizeKey) then ps.ramInBytes(kv.1).value else cfg.size;
    }
  }

  /** The image mode is the last `ploop.mode` option's, or `cfg`'s when
      there is none. */
  lemma {:induction false} LastModeWins(opts: seq<string>, ps: Parsers, cfg: Config)
    ensures var r := ParseOptions(opts, ps, cfg);
      r.Success? && Absent(opts, ps, ModeKey) ==> r.value.mode == cfg.mode
    ensures var r := ParseOptions(opts, ps, cfg);
      r.Success? ==> forall i | IsLast(opts, ps, ModeKey, i) ::
        r.value.mode == ps.imageMode(ValueOf(opts[i], ps)).value
    decreases |opts|
  {
    var r := ParseOptions(opts, ps, cfg);
    if opts != [] && r.Success? {
      var kv := ps.keyValue(opts[0]).value;
      var cfg' := ApplyOption(cfg, kv.0, kv.1, ps).value;
      LastModeWins(opts[1..], ps, cfg');
      ShiftKeys(opts, ps, ModeKey);
      assert cfg'.mode == if HasKey(opts[0], ps, ModeKey) then ps.imageMode(kv.1).value else cfg.mode;
    }
  }

  /** The cluster-block log is the last `ploop.clog` option's, or `cfg`'s
      when there is none. */
  lemma {:induction false} LastClogWins(opts: seq<string>, ps: Parsers, cfg: Config)
    ensures var r := ParseOptions(opts, ps, cfg);
      r.Success? && Absent(opts, ps, ClogKey) ==> r.value.clog == cfg.clog
    ensures var r := ParseOptions(opts, ps, cfg);
      r.Success? ==> forall i | IsLast(opts, ps, ClogKey, i) ::
        r.value.clog == ParseInt8(ValueOf(opts[i], ps)).value
    decreases |opts|
  {
    var r := ParseOptions(opts, ps, cfg);
    if opts != [] && r.Success? {
      var kv := ps.keyValue(opts[0]).value;
      var cfg' := ApplyOption(cfg, kv.0, kv.1, ps).value;
      LastClogWins(opts[1..], ps, cfg');
      ShiftKeys(opts, ps, ClogKey);
      assert cfg'.clog == if HasKey(opts[0], ps, ClogKey) then ParseInt8(kv.1).value else cfg.clog;
    }
  }

  /** Any option with an unknown key makes the whole loop fail. */
  lemma UnknownKeyRejected(opts: seq<string>, ps: Parsers, cfg: Config, i: int)
    requires 0 <= i < |opts| && ps.keyValue(opts[i]).Success?
    requires !IsKnownKey(ToLower(ps.keyValue(opts[i]).value.0))
    ensures ParseOptions(opts, ps, cfg).Failure?
  {
  }

  /** A `ploop.clog` option anywhere in the list is accepted iff its value
      parses as an 8-bit decimal integer in [6, 16].  A bad one makes the
      loop fail, with its own error when every option before it was
      accepted; when the loop succeeds the last such option's value is
      stored. */
  lemma ClogAcceptedIff(opts: seq<string>, ps: Parsers, cfg: Config, i: int)
    requires 0 <= i < |opts| && HasKey(opts[i], ps, ClogKey)
    ensures var val := ValueOf(opts[i], ps);
      ParseOptions(opts, ps, cfg).Success? ==> ParseInt8(val).Success? && ValidClog(ParseInt8(val).value)
    ensures var val := ValueOf(opts[i], ps);
      !(ParseInt8(val).Success? && ValidClog(ParseInt8(val).value)) &&
      (forall j | 0 <= j < i :: OptionOk(opts[j], ps)) ==>
        ParseOptions(opts, ps, cfg) == Failure(BadClog(val))
    ensures ParseOptions(opts, ps, cfg).Success? && IsLast(opts, ps, ClogKey, i) ==>
      ParseOptions(opts, ps, cfg).value.clog == ParseInt8(ValueOf(opts[i], ps)).value
  {
    LastClogWins(opts, ps, cfg);
  }

  /** With no options the configuration is the defaults. */
  lemma NoOptionsGiveDefaults(ps: Parsers)
    ensures ParseOptions([], ps, Defaults) == Success(Config(8589934592, Expanded, 9))
  {
  }

  /** Every decimal value from 6 to 16 is accepted for `ploop.clog`, with or
      without a leading plus sign. */
  lemma ClogRangeAccepted(key: string, n: int, ps: Parsers, cfg: Config)
    requires ToLower(key) == ClogKey && ValidClog(n)
    ensures ApplyOption(cfg, key, Decimal(n), ps) == Success(cfg.(clog := n))
    ensures ApplyOption(cfg, key, ['+'] + Decimal(n), ps) == Success(cfg.(clog := n))
  {
    ParseInt8Decimal(n);
    assert (['+'] + Decimal(n))[1..] == Decimal(n);
  }
}

=== FILE: paths.dfy ===
/** Paths of the abstract filesystem: a path is the sequence of its
    components, and the empty sequence is the root directory. */
module Paths {

  type Path = seq<string>

  /** `path.Join(dir, name)` for a single-component `name`. */
  function Join(dir: Path, name: string): Path
  {
    dir + [name]
  }

  /** The directory that holds `p`; the root is its own parent. */
  function Parent(p: Path): Path
  {
    if p == [] then [] else p[..|p| - 1]
  }

  /** True iff `q` is `p` itself or lies somewhere below `p`. */
  predicate Under(q: Path, p: Path)
  {
    |p| <= |q| && q[..|p|] == p
  }

  lemma ParentOfJoin(dir: Path, name: string)
    ensures Parent(Join(dir, name)) == dir
  {
    assert Join(dir, name)[..|dir|] == dir;
  }
}

=== FILE: ploop.dfy ===
/** The ploop graph driver's state and on-disk layout, `Init`, `Exists` and
    `Remove` (daemon/graphdriver/ploop/ploop.go). */
module Ploop {
  import opened Paths
  import opened Errors
  import opened Files
  import opened Native
  import opened Options
  import opened Strings

  type Uint64 = x: int | 0 <= x < 0x1_0000_0000_0000_0000

  const ImagePrefix := "root.hdd"
  const DescriptorName := "DiskDescriptor.xml"
  const MarkerKey := "uuid-for-children"
  const MountRootName := "mnt"
  const ParentLinkName := "parent"

  /** The driver: its home directory, the parameters of new images (size in
      KiB) and the mount reference counts by layer id. */
  datatype Driver = Driver(home: Path, size: Uint64, mode: ImageMode, clog: nat, mounts: map<string, int>)

  // The layout of the home directory.  A layer `id` owns `<home>/<id>` and
  // the mount point `<home>/mnt/<id>`.

  function LayerDir(d: Driver, id: string): Path
  {
    Join(d.home, id)
  }

  function MountRoot(home: Path): Path
  {
    Join(home, MountRootName)
  }

  function MountDir(d: Driver, id: string): Path
  {
    Join(MountRoot(d.home), id)
  }

  function Descriptor(d: Driver, id: string): Path
  {
    Join(LayerDir(d, id), DescriptorName)
  }

  function ImageFile(d: Driver, id: string): Path
  {
    Join(LayerDir(d, id), ImagePrefix)
  }

  function Marker(d: Driver, id: string): Path
  {
    Join(LayerDir(d, id), MarkerKey)
  }

  /** Ids that are one plain path component, so that joining them to the
      home directory names a new entry of it, and that do not collide with
      the mount root. */
  predicate ValidId(id: string)
  {
    id != "" && id != "." && id != ".." && '/' !in id && id != MountRootName
  }

  /** `uint64(s >> 10)`: an arithmetic shift of the signed byte count,
      then a conversion that wraps modulo 2^64. */
  function ToKiB(s: Int64): Uint64
  {
    (s / 1024) % 0x1_0000_0000_0000_0000
  }

  /** For a byte count that is not negative, the stored size is the number
      of whole KiB it holds; a negative one wraps around. */
  lemma ToKiBRounding(s: Int64)
    ensures s >= 0 ==> ToKiB(s) * 1024 <= s < ToKiB(s) * 1024 + 1024
    ensures s < 0 ==> ToKiB(s) == 0x1_0000_0000_0000_0000 + s / 1024
  {
  }

  datatype InitResult = InitResult(driver: Result<Driver>, fs: Fs)

  /** `Init(home, opt)`: parses the options and creates the layer and mount
      root directories.  No driver is returned on any failure. */
  function Init(home: Path, opts: seq<string>, ps: Parsers, fs: Fs): (r: InitResult)
    ensures ParseOptions(opts, ps, Defaults).Failure? ==>
      r.driver == Failure(ParseOptions(opts, ps, Defaults).error) && r.fs == fs
    ensures r.driver.Success? ==>
      var cfg := ParseOptions(opts, ps, Defaults).value;
      && ParseOptions(opts, ps, Defaults).Success?
      && r.driver.value.home == home
      && r.driver.value.size == ToKiB(cfg.size)
      && r.driver.value.mode == cfg.mode
      && r.driver.value.clog == cfg.clog && ValidClog(r.driver.value.clog)
      && (cfg.size >= 0 ==> r.driver.value.size * 1024 <= cfg.size < r.driver.value.size * 1024 + 1024)
      && r.driver.value.mounts == map[]
    ensures r.driver.Success? ==> forall i | 0 <= i < |opts| :: Accepted(opts[i], ps)
    ensures r.driver.Success? ==> IsDir(r.fs, home) && IsDir(r.fs, MountRoot(home))
    ensures ParseOptions(opts, ps, Defaults).Success? && MkdirAll(fs, home).Failure? ==>
      r.driver == Failure(MkdirAll(fs, home).error) && r.fs == fs
    ensures ParseOptions(opts, ps, Defaults).Success? && MkdirAll(fs, home).Success? ==>
      var fs1 := MkdirAll(fs, home).value;
      && (r.driver.Success? <==> MkdirAll(fs1, MountRoot(home)).Success?)
      && (r.driver.Success? ==> r.fs == MkdirAll(fs1, MountRoot(home)).value)
    ensures r.fs.faults == fs.faults
  {
    match ParseOptions(opts, ps, Defaults)
    case Failure(e) => InitResult(Failure(e), fs)
    case Success(cfg) =>
      var d := Driver(home, ToKiB(cfg.size), cfg.mode, cfg.clog as nat, map[]);
      ToKiBRounding(cfg.size);
      match MkdirAll(fs, home)
      case Failure(e) => InitResult(Failure(e), fs)
      case Success(fs1) =>
        match MkdirAll(fs1, MountRoot(home))
        case Failure(e) => InitResult(Failure(e), fs1)
        case Success(fs2) => InitResult(Success(d), fs2)
  }

  /** Without options the driver makes expanded images of 8 GiB (stored as
      8388608 KiB) with cluster-block log 9. */
  lemma InitDefaults(home: Path, ps: Parsers, fs: Fs)
    requires Init(home, [], ps, fs).driver.Success?
    ensures var d := Init(home, [], ps, fs).driver.value;
      d.mode == Expanded && d.clog == 9 && d.size == 8388608 && d.mounts == map[]
  {
  }

  /** With every option accepted and nothing in the way of the two roots,
      `Init` returns a driver. */
  lemma InitBuilds(home: Path, opts: seq<string>, ps: Parsers, fs: Fs)
    ensures (forall i | 0 <= i < |opts| :: OptionOk(opts[i], ps)) && CanMakeAll(fs, MountRoot(home)) ==>
      Init(home, opts, ps, fs).driver.Success?
  {
    var m := MountRoot(home);
    if (forall i | 0 <= i < |opts| :: OptionOk(opts[i], ps)) && CanMakeAll(fs, m) {
      assert forall k | 0 < k <= |home| :: home[..k] == m[..k];
      var fs1 := MkdirAll(fs, home).value;
      assert m[..|m|] == m;
      assert forall k | 0 < k <= |m| :: m[..k] == m || Under(home, m[..k]);
    }
  }

  /** Without options, on a home directory whose two roots already exist
      and can be opened, `Init` returns the default driver and changes
      nothing. */
  lemma InitDefaultDriver(home: Path, ps: Parsers, fs: Fs)
    ensures (home !in fs.faults.access && IsDir(fs, home) &&
             MountRoot(home) !in fs.faults.access && IsDir(fs, MountRoot(home))) ==>
      Init(home, [], ps, fs) == InitResult(Success(Driver(home, 8388608, Expanded, 9, map[])), fs)
  {
  }

  /** A `ploop.clog` option anywhere in the list that is malformed or out
      of range yields no driver; a driver built has the cluster log of the
      last such option. */
  lemma InitClog(home: Path, opts: seq<string>, ps: Parsers, fs: Fs, i: int)
    requires 0 <= i < |opts| && HasKey(opts[i], ps, ClogKey)
    ensures var val := ValueOf(opts[i], ps);
      Init(home, opts, ps, fs).driver.Success? ==> ParseInt8(val).Success? && ValidClog(ParseInt8(val).value)
    ensures var val := ValueOf(opts[i], ps);
      !(ParseInt8(val).Success? && ValidClog(ParseInt8(val).value)) ==>
        Init(home, opts, ps, fs).driver.Failure? && Init(home, opts, ps, fs).fs == fs
    ensures Init(home, opts, ps, fs).driver.Success? && IsLast(opts, ps, ClogKey, i) ==>
      Init(home, opts, ps, fs).driver.value.clog == ParseInt8(ValueOf(opts[i], ps)).value
  {
    ClogAcceptedIff(opts, ps, Defaults, i);
  }

  /** Any option that is not accepted, wherever it stands, yields no driver
      and leaves the filesystem alone. */
  lemma InitRejectsBadOption(home: Path, opts: seq<string>, ps: Parsers, fs: Fs, i: int)
    requires 0 <= i < |opts| && !OptionOk(opts[i], ps)
    ensures Init(home, opts, ps, fs).driver.Failure? && Init(home, opts, ps, fs).fs == fs
  {
  }

  /** A driver's image size (in KiB) and mode come from the last
      `ploop.size` and `ploop.mode` options, and are 8388608 KiB and
      expanded when there are none. */
  lemma InitSizeAndMode(home: Path, opts: seq<string>, ps: Parsers, fs: Fs)
    ensures var r := Init(home, opts, ps, fs);
      r.driver.Success? && Absent(opts, ps, SizeKey) ==> r.driver.value.size == 8388608
    ensures var r := Init(home, opts, ps, fs);
      r.driver.Success? ==> forall i | IsLast(opts, ps, SizeKey, i) ::
        r.driver.value.size == ToKiB(ps.ramInBytes(ValueOf(opts[i], ps)).value)
    ensures var r := Init(home, opts, ps, fs);
      r.driver.Success? && Absent(opts, ps, ModeKey) ==> r.driver.value.mode == Expanded
    ensures var r := Init(home, opts, ps, fs);
      r.driver.Success? ==> forall i | IsLast(opts, ps, ModeKey, i) ::
        r.driver.value.mode == ps.imageMode(ValueOf(opts[i], ps)).value
  {
    LastSizeWins(opts, ps, Defaults);
    LastModeWins(opts, ps, Defaults);
  }

  /** `Exists(id)`: whether the layer's disk descriptor can be stat'ed. */
  function Exists(d: Driver, fs: Fs, id: string): (r: bool)
    ensures r <==> Lookup(fs, Descriptor(d, id)).Some? && Descriptor(d, id) !in fs.faults.access
  {
    Stat(fs, Descriptor(d, id)).Success?
  }

  /** `Remove(id)`: deletes the layer directory, then the mount point. */
  function Remove(d: Driver, fs: Fs, id: string): (r: Effect)
    ensures r.out.Pass? <==> !FaultUnder(fs, LayerDir(d, id)) && !FaultUnder(fs, MountDir(d, id))
    ensures r.out.Pass? ==>
      Lookup(r.fs, LayerDir(d, id)) == None && Lookup(r.fs, MountDir(d, id)) == None && !Exists(d, r.fs, id)
    ensures forall q :: !Under(q, LayerDir(d, id)) && !Under(q, MountDir(d, id)) ==> Lookup(r.fs, q) == Lookup(fs, q)
    ensures r.fs.faults == fs.faults
  {
    match RemoveAll(fs, LayerDir(d, id))
    case Failure(e) => Effect(Fail(e), fs)
    case Success(fs1) =>
      assert FaultUnder(fs1, MountDir(d, id)) <==> FaultUnder(fs, MountDir(d, id)) by {
        forall q | q in fs.tree && !Under(q, LayerDir(d, id))
          ensures q in fs1.tree
        {
          assert Lookup(fs1, q) == Lookup(fs, q);
        }
      }
      match RemoveAll(fs1, MountDir(d, id))
      case Failure(e) => Effect(Fail(e), fs1)
      case Success(fs2) => Effect(Pass, fs2)
  }
}

=== FILE: scenarios.dfy ===
/** Properties that span several driver operations: children of one parent
    share a single snapshot of it, a parent with children is mounted
    read-only, and a created layer exists until it is removed. */
module Scenarios {
  import opened Paths
  import opened Errors
  import opened Files
  import opened Native
  import opened Utils
  import opened Ploop
  import opened Mounts
  import opened Layers

  /** The conditions under which cloning `parent` records the snapshot it
      uses: the parent directory is there, its marker can be read and
      written, the marker is absent or already holds a snapshot, and the
      native library names every snapshot it takes. */
  predicate SnapshotReady(d: Driver, fs: Fs, lib: Library, parent: string)
  {
    var pdir, mk := LayerDir(d, parent), Marker(d, parent);
    && IsDir(fs, pdir)
    && mk !in fs.faults.access && mk !in fs.faults.data
    && ReadVal(fs, pdir, MarkerKey).Success?
    && (Lookup(fs, mk).None? || ReadVal(fs, pdir, MarkerKey).value != "")
    && (lib.snapshot(Descriptor(d, parent)).Success? ==> lib.snapshot(Descriptor(d, parent)).value != "")
  }

  /** After a successful `clone(id, parent)` the parent's marker holds
      the snapshot the child was switched to; a snapshot recorded before is
      reused without taking a new one. */
  lemma CloneRecordsSnapshot(d: Driver, fs: Fs, lib: Library, id: string, parent: string)
    requires parent != id
    requires SnapshotReady(d, fs, lib, parent)
    ensures var r := Clone(d, fs, lib, id, parent);
      var s := ReadVal(r.fs, LayerDir(d, parent), MarkerKey);
      r.out.Pass? ==> s.Success? && s.value != "" && SwitchSnapshot(Descriptor(d, id), s.value) in r.calls
    ensures var before := ReadVal(fs, LayerDir(d, parent), MarkerKey);
      var r := Clone(d, fs, lib, id, parent);
      r.out.Pass? && before.value != "" ==>
        ReadVal(r.fs, LayerDir(d, parent), MarkerKey) == before && (forall c | c in r.calls :: !c.Snapshot?)
  {
    var pdir, pdd, mk := LayerDir(d, parent), Descriptor(d, parent), Marker(d, parent);
    var c := Clone(d, fs, lib, id, parent);
    if c.out.Pass? {
      if ReadVal(fs, pdir, MarkerKey).value != "" {
        assert Lookup(c.fs, mk) == Lookup(fs, mk);
      } else {
        var s := lib.snapshot(pdd).value;
        assert c.fs == CloneAfterSnapshot(d, fs, lib, id, parent, s).fs;
        assert c.calls[3..][1] == SwitchSnapshot(Descriptor(d, id), s);
      }
    }
  }

  /** A successful `Create` of a child is the clone of the parent into
      the new layer directory, followed by a mount point that is not the
      parent's marker. */
  lemma CreateIsClone(d: Driver, fs: Fs, lib: Library, id: string, parent: string)
    requires ValidId(parent)
    ensures Layers.Create(d, fs, lib, id, parent).out.Pass? ==> Mkdir(fs, LayerDir(d, id)).Success?
    ensures var r := Layers.Create(d, fs, lib, id, parent);
      r.out.Pass? ==>
        var c := Clone(d, Mkdir(fs, LayerDir(d, id)).value, lib, id, parent);
        c.out.Pass? && r.calls == c.calls && r.fs.faults == c.fs.faults &&
        Lookup(r.fs, Marker(d, parent)) == Lookup(c.fs, Marker(d, parent))
  {
    LayoutDisjoint(d, id, parent);
  }

  /** Making the child's layer directory keeps the parent ready. */
  lemma MkdirKeepsReady(d: Driver, fs: Fs, lib: Library, id: string, parent: string)
    requires parent != id && Mkdir(fs, LayerDir(d, id)).Success?
    ensures var fs1 := Mkdir(fs, LayerDir(d, id)).value;
      ReadVal(fs1, LayerDir(d, parent), MarkerKey) == ReadVal(fs, LayerDir(d, parent), MarkerKey) &&
      (SnapshotReady(d, fs, lib, parent) ==> SnapshotReady(d, fs1, lib, parent))
  {
    LayoutDisjoint(d, id, parent);
    var fs1 := Mkdir(fs, LayerDir(d, id)).value;
    ReadValElsewhere(fs, fs1, LayerDir(d, parent), MarkerKey, LayerDir(d, id));
    assert LayerDir(d, parent) != LayerDir(d, id) by {
      assert LayerDir(d, parent)[|d.home|] == parent;
    }
  }

  /** The same for `Create(id, parent)`: making the layer directory before
      and the mount point after the clone leaves the marker alone. */
  lemma CreateRecordsSnapshot(d: Driver, fs: Fs, lib: Library, id: string, parent: string)
    requires parent != id && ValidId(parent)
    requires SnapshotReady(d, fs, lib, parent)
    ensures var r := Layers.Create(d, fs, lib, id, parent);
      var s := ReadVal(r.fs, LayerDir(d, parent), MarkerKey);
      r.out.Pass? ==> s.Success? && s.value != "" && SwitchSnapshot(Descriptor(d, id), s.value) in r.calls
    ensures var before := ReadVal(fs, LayerDir(d, parent), MarkerKey);
      var r := Layers.Create(d, fs, lib, id, parent);
      r.out.Pass? && before.value != "" ==>
        ReadVal(r.fs, LayerDir(d, parent), MarkerKey) == before && (forall c | c in r.calls :: !c.Snapshot?)
  {
    if Layers.Create(d, fs, lib, id, parent).out.Pass? {
      CreateIsClone(d, fs, lib, id, parent);
      MkdirKeepsReady(d, fs, lib, id, parent);
      CloneRecordsSnapshot(d, Mkdir(fs, LayerDir(d, id)).value, lib, id, parent);
    }
  }

  /** Two children cloned from one parent are switched to the same
      snapshot of it, and the second clone takes no snapshot. */
  lemma ClonesShareSnapshot(d: Driver, fs: Fs, lib: Library, c1: string, c2: string, parent: string)
    requires parent != c1 && parent != c2 && ValidId(parent)
    requires SnapshotReady(d, fs, lib, parent)
    ensures var r1 := Layers.Create(d, fs, lib, c1, parent);
      var r2 := Layers.Create(d, r1.fs, lib, c2, parent);
      r1.out.Pass? && r2.out.Pass? ==>
        && (forall c | c in r2.calls :: !c.Snapshot?)
        && exists s :: s != "" && SwitchSnapshot(Descriptor(d, c1), s) in r1.calls && SwitchSnapshot(Descriptor(d, c2), s) in r2.calls
  {
    var r1 := Layers.Create(d, fs, lib, c1, parent);
    if r1.out.Pass? {
      CreateRecordsSnapshot(d, fs, lib, c1, parent);
      LayoutDisjoint(d, c1, parent);
      LayerPathsDistinct(d, c1, parent);
      assert Lookup(r1.fs, LayerDir(d, parent)) == Lookup(fs, LayerDir(d, parent));
      assert SnapshotReady(d, r1.fs, lib, parent);
      CreateRecordsSnapshot(d, r1.fs, lib, c2, parent);
    }
  }

  /** Once a child was cloned from it, the parent is mounted read-only by
      its first `Get`. */
  lemma ParentReadOnlyAfterClone(d: Driver, fs: Fs, lib: Library, id: string, parent: string, mountLabel: string)
    requires parent != id && ValidId(parent)
    requires SnapshotReady(d, fs, lib, parent)
    requires Count(d.mounts, parent) <= 0 && lib.open(Descriptor(d, parent)).Pass?
    ensures var pdd := Descriptor(d, parent);
      var r := Layers.Create(d, fs, lib, id, parent);
      r.out.Pass? ==>
        Get(d, r.fs, lib, parent, mountLabel).calls ==
          [Open(pdd), Mount(pdd, MountParam(MountDir(d, parent), true, mountLabel)), Close(pdd)]
  {
    CreateRecordsSnapshot(d, fs, lib, id, parent);
  }

  /** A created layer exists, and removing it again makes it disappear. */
  lemma CreateThenRemove(d: Driver, fs: Fs, lib: Library, id: string, parent: string)
    requires Descriptor(d, id) !in fs.faults.access
    ensures var r := Layers.Create(d, fs, lib, id, parent);
      r.out.Pass? ==> Exists(d, r.fs, id)
    ensures var r := Layers.Create(d, fs, lib, id, parent);
      r.out.Pass? && Ploop.Remove(d, r.fs, id).out.Pass? ==> !Exists(d, Ploop.Remove(d, r.fs, id).fs, id)
  {
  }
}

=== FILE: strings.dfy ===
/** The string functions of the Go standard library that the driver relies
    on: `strings.ToLower`, `strings.HasPrefix`, the byte-wise ordering that
    `ioutil.ReadDir` sorts by, and `strconv.ParseInt(s, 10, 8)`. */
module Strings {
  import opened Errors

  /** ASCII lower-casing of one character. */
  function LowerChar(c: char): char
  {
    if 'A' <= c <= 'Z' then (c as int + 32) as char else c
  }

  /** `strings.ToLower`, restricted to ASCII letters. */
  function ToLower(s: string): (r: string)
    ensures |r| == |s|
    ensures forall i :: 0 <= i < |s| ==> r[i] == LowerChar(s[i])
  {
    if s == [] then [] else [LowerChar(s[0])] + ToLower(s[1..])
  }

  /** `strings.HasPrefix(s, prefix)`. */
  predicate HasPrefix(s: string, prefix: string)
  {
    |prefix| <= |s| && s[..|prefix|] == prefix
  }

  // ---------------------------------------------------------------------
  // Ordering of names.  Go compares strings byte-wise on their UTF-8
  // encoding, which orders them exactly as comparing code points
  // lexicographically does.

  predicate LessEq(a: string, b: string)
    decreases |a|
  {
    |a| == 0 || (|b| > 0 && (a[0] < b[0] || (a[0] == b[0] && LessEq(a[1..], b[1..]))))
  }

  lemma {:induction false} LessEqReflexive(a: string)
    ensures LessEq(a, a)
    decreases |a|
  {
    if |a| > 0 {
      LessEqReflexive(a[1..]);
    }
  }

  lemma {:induction false} LessEqTotal(a: string, b: string)
    ensures LessEq(a, b) || LessEq(b, a)
    decreases |a|
  {
    if |a| > 0 && |b| > 0 && a[0] == b[0] {
      LessEqTotal(a[1..], b[1..]);
    }
  }

  lemma {:induction false} LessEqAntisymmetric(a: string, b: string)
    requires LessEq(a, b) && LessEq(b, a)
    ensures a == b
    decreases |a|
  {
    if |a| > 0 {
      LessEqAntisymmetric(a[1..], b[1..]);
      assert a == [a[0]] + a[1..] && b == [b[0]] + b[1..];
    }
  }

  lemma {:induction false} LessEqTransitive(a: string, b: string, c: string)
    requires LessEq(a, b) && LessEq(b, c)
    ensures LessEq(a, c)
    decreases |a|
  {
    if |a| > 0 && a[0] == b[0] && b[0] == c[0] {
      LessEqTransitive(a[1..], b[1..], c[1..]);
    }
  }

  predicate IsLeast(m: string, s: set<string>)
  {
    m in s && forall x | x in s :: LessEq(m, x)
  }

  lemma {:induction false} LeastExists(s: set<string>)
    requires s != {}
    ensures exists m :: IsLeast(m, s)
    decreases |s|
  {
    var x :| x in s;
    if s == {x} {
      LessEqReflexive(x);
      assert IsLeast(x, s);
    } else {
      LeastExists(s - {x});
      var m :| IsLeast(m, s - {x});
      LessEqTotal(m, x);
      if LessEq(m, x) {
        assert IsLeast(m, s);
      } else {
        forall y | y in s
          ensures LessEq(x, y)
        {
          if y == x {
            LessEqReflexive(x);
          } else {
            LessEqTransitive(x, m, y);
          }
        }
        assert IsLeast(x, s);
      }
    }
  }

  lemma LeastUnique(s: set<string>)
    ensures forall m, m' | IsLeast(m, s) && IsLeast(m', s) :: m == m'
  {
    forall m, m' | IsLeast(m, s) && IsLeast(m', s)
      ensures m == m'
    {
      LessEqAntisymmetric(m, m');
    }
  }

  /** The least name of a non-empty set. */
  function Least(s: set<string>): (m: string)
    requires s != {}
    ensures IsLeast(m, s)
  {
    LeastExists(s);
    LeastUnique(s);
    var m :| IsLeast(m, s);
    m
  }

  predicate StrictlySorted(r: seq<string>)
  {
    forall i, j | 0 <= i < j < |r| :: LessEq(r[i], r[j]) && r[i] != r[j]
  }

  predicate NoDuplicates(r: seq<string>)
  {
    forall i, j | 0 <= i < j < |r| :: r[i] != r[j]
  }

  lemma ConsStrictlySorted(m: string, rest: seq<string>)
    requires StrictlySorted(rest)
    requires forall x | x in rest :: LessEq(m, x) && x != m
    ensures StrictlySorted([m] + rest)
  {
    var r := [m] + rest;
    forall i, j | 0 <= i < j < |r|
      ensures LessEq(r[i], r[j]) && r[i] != r[j]
    {
      if i == 0 {
        assert r[j] == rest[j - 1];
        assert r[j] in rest;
      } else {
        assert r[i] == rest[i - 1] && r[j] == rest[j - 1];
      }
    }
  }

  /** The names of a set in ascending byte order, as `ioutil.ReadDir`
      lists a directory. */
  function SortedList(s: set<string>): (r: seq<string>)
    ensures |r| == |s|
    ensures forall x :: x in r <==> x in s
    ensures StrictlySorted(r)
    decreases |s|
  {
    if s == {} then []
    else
      var m := Least(s);
      var rest := SortedList(s - {m});
      assert forall x | x in rest :: x in s - {m};
      ConsStrictlySorted(m, rest);
      [m] + rest
  }

  // ---------------------------------------------------------------------
  // strconv.ParseInt(s, 10, 8)

  predicate IsDigit(c: char)
  {
    '0' <= c <= '9'
  }

  predicate AllDigits(s: string)
  {
    forall i | 0 <= i < |s| :: IsDigit(s[i])
  }

  /** The value of a string of decimal digits, most significant first. */
  function DigitsValue(s: string): nat
    requires AllDigits(s)
  {
    if s == [] then 0
    else DigitsValue(s[..|s| - 1]) * 10 + (s[|s| - 1] as int - '0' as int)
  }

  /** `strconv.ParseInt(s, 10, 8)`: an optional sign followed by at least one
      decimal digit, whose value must fit in an `int8`. */
  function ParseInt8(s: string): (r: Result<int>)
    ensures r.Success? ==> -128 <= r.value <= 127
    ensures r.Success? <==>
      var neg := |s| > 0 && s[0] == '-';
      var digits := if |s| > 0 && (s[0] == '+' || s[0] == '-') then s[1..] else s;
      digits != [] && AllDigits(digits) &&
      (if neg then DigitsValue(digits) <= 128 else DigitsValue(digits) <= 127)
  {
    if s == [] then Failure(NumSyntax(s))
    else
      var neg := s[0] == '-';
      var digits := if s[0] == '+' || s[0] == '-' then s[1..] else s;
      if digits == [] || !AllDigits(digits) then Failure(NumSyntax(s))
      else
        var un: int := DigitsValue(digits);
        if !neg && un >= 128 then Failure(NumRange(s))
        else if neg && un > 128 then Failure(NumRange(s))
        else Success(if neg then -un else un)
  }

  /** The decimal rendering of a natural number, without sign or leading
      zeros. */
  function Decimal(n: nat): (r: string)
    ensures r != [] && AllDigits(r)
    decreases n
  {
    var last := [((n % 10) + '0' as int) as char];
    if n < 10 then last else Decimal(n / 10) + last
  }

  lemma {:induction false} DecimalValue(n: nat)
    ensures DigitsValue(Decimal(n)) == n
    decreases n
  {
    var d := Decimal(n);
    if n >= 10 {
      DecimalValue(n / 10);
      assert d[..|d| - 1] == Decimal(n / 10);
    }
  }

  /** Parsing the decimal rendering of any int8 value gives the value back. */
  lemma ParseInt8Decimal(n: int)
    requires -128 <= n <= 127
    ensures n >= 0 ==> ParseInt8(Decimal(n)) == Success(n)
    ensures n < 0 ==> ParseInt8(['-'] + Decimal(-n)) == Success(n)
  {
    if n >= 0 {
      DecimalValue(n);
    } else {
      DecimalValue(-n);
      assert (['-'] + Decimal(-n))[1..] == Decimal(-n);
    }
  }
}

=== FILE: utils.dfy ===
/** The helpers of daemon/graphdriver/ploop/utils.go: a tiny key/value store
    of one file per key inside a directory, and a file copy. */
module Utils {
  import opened Paths
  import opened Errors
  import opened Files

  /** `writeVal(dir, id, val)`: creates `dir/id` exclusively and writes
      `val` into it.  An existing key is never overwritten. */
  function WriteVal(fs: Fs, dir: Path, key: string, val: string): (r: Effect)
    ensures var p := Join(dir, key);
      r.out.Pass? <==>
        p !in fs.faults.access && p !in fs.faults.data && Lookup(fs, p).None? && IsDir(fs, dir)
    ensures var p := Join(dir, key);
      Lookup(fs, p).Some? ==> r.out.Fail? && r.fs == fs
    ensures var p := Join(dir, key);
      Lookup(fs, p).Some? && p !in fs.faults.access ==> r.out == Fail(AlreadyExists(p))
    ensures var p := Join(dir, key);
      r.out.Pass? ==> Lookup(r.fs, p) == Some(File(fs.nextIno, val))
    ensures var p := Join(dir, key);
      r.out.Fail? && r.fs != fs ==> Lookup(r.fs, p) == Some(File(fs.nextIno, ""))
    ensures OnlyChanged(fs, r.fs, Join(dir, key))
  {
    var p := Join(dir, key);
    ParentOfJoin(dir, key);
    match CreateExclusive(fs, p)
    case Failure(e) => Effect(Fail(e), fs)
    case Success(fs1) =>
      match WriteContents(fs1, p, val)
      case Failure(e) => Effect(Fail(e), fs1)
      case Success(fs2) => Effect(Pass, fs2)
  }

  /** `readVal(dir, id)`: the value stored under `id`, the empty string when
      there is none; any other read error is returned, ENOTDIR included. */
  function ReadVal(fs: Fs, dir: Path, key: string): (r: Result<string>)
    ensures var p := Join(dir, key);
      Lookup(fs, p).None? && p !in fs.faults.access && !FileAbove(fs, p) ==> r == Success("")
    ensures var p := Join(dir, key);
      r.Success? && Lookup(fs, p).Some? ==> Lookup(fs, p).value.File? && r.value == Lookup(fs, p).value.data
    ensures var p := Join(dir, key);
      r.Failure? <==>
        || p in fs.faults.access
        || (Lookup(fs, p).Some? && (!Lookup(fs, p).value.File? || p in fs.faults.data))
        || (Lookup(fs, p).None? && FileAbove(fs, p))
    ensures r.Failure? ==> !r.error.NotExist?
  {
    var p := Join(dir, key);
    match ReadFile(fs, p)
    case Success(buf) => Success(buf)
    case Failure(e) => if e.NotExist? then Success("") else Failure(e)
  }

  /** `removeVal(dir, id)`: deletes the key file. */
  function RemoveVal(fs: Fs, dir: Path, key: string): (r: Result<Fs>)
    ensures r.Success? ==> Lookup(fs, Join(dir, key)).Some? && Lookup(r.value, Join(dir, key)) == None
    ensures r.Success? ==> OnlyChanged(fs, r.value, Join(dir, key))
    ensures var p := Join(dir, key);
      p !in fs.faults.access && Lookup(fs, p).Some? && Lookup(fs, p).value.File? ==> r.Success?
  {
    Remove(fs, Join(dir, key))
  }

  /** Nothing in the way of copying `src` onto `dst`: the source is a
      readable regular file, and the destination is a writable regular
      file or a new name in an existing directory. */
  predicate CanCopy(fs: Fs, src: Path, dst: Path)
  {
    && src !in fs.faults.access && dst !in fs.faults.access
    && Lookup(fs, src).Some? && Lookup(fs, src).value.File?
    && src !in fs.faults.data && dst !in fs.faults.data
    && (if Lookup(fs, dst).Some? then Lookup(fs, dst).value.File? else IsDir(fs, Parent(dst)))
  }

  /** `copyFile(src, dst)`: like `cp src dst`.  When copying the contents
      fails, `dst` is removed again. */
  function CopyFile(fs: Fs, src: Path, dst: Path): (r: Effect)
    ensures OnlyChanged(fs, r.fs, dst)
    ensures r.out.Pass? <==> CanCopy(fs, src, dst)
    ensures r.out.Pass? ==>
      Lookup(r.fs, dst).Some? && Lookup(r.fs, dst).value.File? &&
      Lookup(r.fs, src).Some? && Lookup(r.fs, src).value.File? &&
      Lookup(r.fs, dst).value.data == Lookup(r.fs, src).value.data
    ensures r.out.Pass? && src != dst ==> Lookup(r.fs, dst).value.data == Lookup(fs, src).value.data
    ensures r.out.Fail? && Open(fs, src).Success? && CreateTruncate(fs, dst).Success? ==>
      Lookup(r.fs, dst) == None
    ensures r.out.Fail? && (Open(fs, src).Failure? || CreateTruncate(fs, dst).Failure?) ==> r.fs == fs
  {
    match Open(fs, src)
    case Failure(e) => Effect(Fail(e), fs)
    case Success(_) =>
      match CreateTruncate(fs, dst)
      case Failure(e) => Effect(Fail(e), fs)
      case Success(fs1) =>
        // io.Copy(d, s)
        var copied :=
          match ReadContents(fs1, src)
          case Failure(e) => Failure(e)
          case Success(data) => WriteContents(fs1, dst, data);
        match copied
        case Success(fs2) => Effect(Pass, fs2)
        case Failure(e) =>
          var removed := match Remove(fs1, dst) case Success(fs3) => fs3 case Failure(_) => fs1;
          Effect(Fail(e), removed)
  }

  /** A value written with `writeVal` is read back by `readVal`. */
  lemma WriteThenRead(fs: Fs, dir: Path, key: string, val: string)
    requires WriteVal(fs, dir, key, val).out.Pass?
    ensures ReadVal(WriteVal(fs, dir, key, val).fs, dir, key) == Success(val)
  {
  }

  /** Writing one key leaves the value of every other key as it was. */
  lemma WriteKeepsOtherKeys(fs: Fs, dir: Path, key: string, val: string, other: string)
    requires other != key
    ensures ReadVal(WriteVal(fs, dir, key, val).fs, dir, other) == ReadVal(fs, dir, other)
  {
    assert Join(dir, other) != Join(dir, key) by {
      assert Join(dir, other)[|dir|] == other;
    }
  }

  /** After `removeVal` the key reads as absent, and a new `writeVal` of it
      succeeds unless the file's contents cannot be written. */
  lemma RemoveThenReadAndWrite(fs: Fs, dir: Path, key: string, val: string)
    requires RemoveVal(fs, dir, key).Success? && WellFormed(fs)
    ensures ReadVal(RemoveVal(fs, dir, key).value, dir, key) == Success("")
    ensures IsDir(fs, dir) && Join(dir, key) !in fs.faults.data ==>
      WriteVal(RemoveVal(fs, dir, key).value, dir, key, val).out.Pass?
  {
    ParentOfJoin(dir, key);
    NoFileAboveExisting(fs, Join(dir, key));
  }

  /** `readVal` sees nothing but the key's own file and the directories
      above it. */
  lemma ReadValElsewhere(fs: Fs, fs': Fs, dir: Path, key: string, c: Path)
    requires OnlyChanged(fs, fs', c) && !Under(Join(dir, key), c)
    ensures ReadVal(fs', dir, key) == ReadVal(fs, dir, key)
  {
    ChangeElsewhere(fs, fs', c, Join(dir, key));
  }

  /** Removing one key leaves every other key as it was. */
  lemma RemoveKeepsOtherKeys(fs: Fs, dir: Path, key: string, other: string)
    requires other != key && RemoveVal(fs, dir, key).Success?
    ensures ReadVal(RemoveVal(fs, dir, key).value, dir, other) == ReadVal(fs, dir, other)
  {
    assert Join(dir, other) != Join(dir, key) by {
      assert Join(dir, other)[|dir|] == other;
    }
  }

  /** Copying a file onto itself truncates it first, so it ends up empty. */
  lemma CopyOntoItselfEmpties(fs: Fs, p: Path)
    requires CopyFile(fs, p, p).out.Pass?
    ensures Lookup(CopyFile(fs, p, p).fs, p).value.data == ""
  {
  }
}
